=== FILE: README.md ===
# modern-fetch request pipeline in Dafny

This project models the request-building pipeline of the modern-fetch wrapper around `fetch`,
in both of the shapes the repository ships:

- `index.ts`, the current source (`RestfulFetch.create`, and the `Request` class with `send`,
  `fetch` and the verbs). This is module `ModernFetch`.
- `dist/index.js`, an older compiled build (`DesonFetch.create`, and the `Request` class with
  `post`, `delete`, `put`, `patch`, `get`, `getOne` and `fetch`). This is module `DesonFetch`.

Each variant is modelled as written. Where they differ, lemmas in `Variants` state the
difference over all inputs.

The shared pieces are:

- `Js`: JavaScript values as the pipeline sees them. This covers payloads and their
  truthiness, ECMAScript completion records (`Normal`/`Abrupt`) standing for settled
  promises, and `ToString`.
- `Decimal`: the rendering of integer ids.
- `Text`: `String.prototype.trim` and `removeSlash`. `removeSlash` is proved equal to a
  position-by-position reading of the global regular expression `/(^\/|\/$)/g`.
- `Records`: plain objects as ordered key/value lists, and `Object.assign`.
- `HeaderLists`: the `Headers` object of the WHATWG Fetch Standard (section 5.1, "Headers class"). Its `get`
  is case-insensitive and joins values with ", ", and its `append` never replaces.
- `ContentRules`: the Content-Type and body decision table. It is parameterised by what a
  failing `JSON.stringify` does: index.ts rejects the call, while dist/index.js logs the
  error and sends no body.
- `Urls`: the four baseUrl/prefix cases of `create`, and splitting a URL at its first `?`.
  The split is used to state that a query a verb appends can be recovered.

Host code that the pipeline calls but does not define is passed in as function values of
`ContentRules.Host`:
- `URLSearchParams` serialisation;
- `JSON.stringify`;
- the `fetch` transport;
- the response body readers.

The caller's interceptors are function values too. They are held in the `Interceptors` field
of each variant's `Handle`: request, response and error hooks in `ModernFetch`, response and
error hooks in `DesonFetch`.

A promise is represented by the completion it settles to. The difference between
`return p` and `return await p` inside `try` is kept. In index.ts the response interceptor's
promise and the non-ok rejection are returned without `await`, so the `catch` never sees
them. dist/index.js awaits the response interceptor, so its rejection goes to the error
interceptor.

## Model

| member | source | states |
|---|---|---|
| Text.Trim | index.ts:32 | `trim` never lengthens its input, leaves no trimmable character at either end, and returns an already trimmed string unchanged |
| Text.TrimIsSlice | index.ts:32 | what `trim` keeps is the contiguous slice of its input that starts where the leading white space ends |
| Text.TrimDropsBlank | dist/index.js:10 | what `trim` drops before and after that slice is white space and line terminators only |
| Text.RemoveSlash | index.ts:31-33 | the result is the trimmed input less at most one character at each end, as a contiguous slice; an input whose trimmed form has no edge `/` comes back trimmed and otherwise unchanged |
| Text.RemoveSlashIsTrimThenReplace | index.ts:32 | on every string, `removeSlash` equals trim followed by the global replacement of `^\/` and `\/$`, read position by position |
| Text.StripEdgeSlashesIsRegexReplace | dist/index.js:10 | the slice formulation of the edge-slash removal agrees with the regular-expression replacement on every string |
| Text.RemoveSlashStripsOneEach | index.ts:31-33 | `"/" + m + "/"` becomes exactly `m`, whatever `m` holds: one slash goes from each end and no more |
| Text.RemoveSlashNotIdempotent | dist/index.js:9-11 | doubled edge slashes keep one of each pair (`"//m//"` becomes `"/m/"`), and a second application removes those |
| Text.RemoveSlashKeepsOnly | index.ts:31-33 | `removeSlash` only deletes: every character of its result occurs in its input |
| Decimal.IntToDecimal | index.ts:153 | an integer renders as a non-empty numeral without `?` or `/`, and its digits read back as its magnitude |
| Decimal.IntToDecimalInjective | index.ts:153 | distinct integer ids render as distinct strings |
| Js.ToJsString | index.ts:153 | `x + ''` leaves a string unchanged and renders a number as its decimal numeral, which reads back as the number |
| Records.Put | index.ts:70 | assigning a property sets it, leaves every other property alone, keeps an existing key in place and adds a new key last |
| Records.PutAllSpec | index.ts:70-72 | copying a source's properties onto a target: source values win, target-only keys keep theirs, the target's keys stay a prefix, and the result has no repeated key |
| Records.AssignSpec | index.ts:70-72 | `Object.assign({}, defaults, overrides)`: overrides win on shared keys, every key from either side is kept and no other appears, and the defaults' keys come first |
| Records.KeysLookup | dist/index.js:35 | a key is an own key exactly when looking it up finds a value |
| HeaderLists.Values | index.ts:76 | the values matching a name case-insensitively are empty exactly when no entry has that name |
| HeaderLists.Get | index.ts:76 | `get` reports nothing exactly when no entry matches the name; if a matching entry has a non-empty value, the combined value is non-empty |
| HeaderLists.GetIgnoresNameCase | index.ts:76 | every spelling of a name that is equal ignoring case sees the same entries and the same value |
| HeaderLists.NoContentTypeIff | index.ts:76-78 | `!contentType` holds exactly when there is no Content-Type entry or the only one is empty |
| HeaderLists.AppendContentTypeMakesPresent | index.ts:79 | appending a non-empty Content-Type, in any spelling, makes one present |
| HeaderLists.AppendAfterEmptyContentType | index.ts:88 | `append` does not replace: after an empty Content-Type, `get` reports `", " + value` |
| ContentRules.Prepare | index.ts:74-110 | the Content-Type/body table. It fails only on a stringify failure under the rejecting policy, with that error. An existing Content-Type is never touched; otherwise exactly the table's default is appended. FormData passes through exactly for body verbs. A successful stringify of object data is the body. GET/HEAD, falsy and scalar data send nothing |
| ContentRules.PrepareKeepsExistingContentType | index.ts:86-103 | whatever `get('Content-Type')` reported before the step, it still reports afterwards |
| ContentRules.PrepareLeavesContentType | dist/index.js:40-80 | after the step a Content-Type is present exactly when one was present, or the verb is GET/HEAD, or the data is falsy or a mapping |
| ContentRules.PoliciesDifferOnlyOnStringifyFailure | dist/index.js:52-71 | the two failure policies give different results exactly for a body verb with object data whose stringify fails, and the logging policy never fails |
| Urls.ComposeUrl | index.ts:229-241 | the four branches are one concatenation: the normalised baseUrl, then `"/"` and the normalised prefix, each present exactly when its setting is truthy, then the resource path verbatim at the end |
| Urls.SplitQueryRoundTrip | index.ts:156 | a `?`-free path followed by `"?" + q` splits back into exactly that path and `q`; a `?`-free URL has no query |
| ModernFetch.Create | index.ts:229-244 | the handle URL is the normalised baseUrl, then `"/"` and the normalised prefix, each present exactly when its setting is truthy, then the resource path verbatim; with no baseUrl or prefix it is the resource path alone; the instance defaults and hooks are carried over unchanged |
| ModernFetch.Send | index.ts:148-169 | a falsy primary argument changes nothing. A truthy id adds one `/`-segment, and on GET a truthy `options.data` moves into the query and leaves the options. A mapping is the query of a GET (even when empty) and otherwise replaces `options.data` |
| ModernFetch.SendQueryRecoverable | index.ts:151-166 | splitting the URL `send` builds at its first `?` gives back the handle URL with the id segment and exactly the serialised query. The query is present exactly for a GET with a mapping, or with an id and truthy `options.data` |
| ModernFetch.NumericIdSegmentRoundTrip | index.ts:152-153 | a number id is never altered by `removeSlash`: the segment is `"/"` plus its numeral, and a positive id reads back from it |
| ModernFetch.RunRequestInterceptor | index.ts:53-59 | with a request interceptor the wrapper's result is the interceptor's settled result for the config; with none it returns the config unchanged |
| ModernFetch.BuildRequest | index.ts:65-110 | the config is exactly what the request interceptor resolved to for the merged config; its url and fetch options are dispatched and the table runs on its headers, while the method and the body come from the original call; without an interceptor the config is the merged one; building fails exactly when the interceptor rejects or the JSON body cannot be produced, and then with the interceptor's rejection reason, or else with the stringify error |
| ModernFetch.CallHeadersWin | index.ts:70-73 | per-call header values win over instance defaults, and the merged keys are exactly those of either side |
| ModernFetch.ReaderFor | index.ts:124-135 | text, blob, formData and arrayBuffer pick their own readers, and the JSON reader is picked exactly when the response type is none of those four |
| ModernFetch.Caught | index.ts:140-145 | the error interceptor, if any, is given the caught error; the call rejects with that error unless the interceptor throws, and then with what it threw |
| ModernFetch.Settle | index.ts:112-145 | a response interceptor owns every response and its result is returned uncaught. Without one, a non-ok response rejects with itself and an ok one is read with the chosen reader. A transport error, or the reader's rejection of an ok response, is what the `catch` block handles; the error interceptor sees exactly that error and the call rejects with it, or with what the interceptor throws. With no error interceptor the error is the call's rejection |
| ModernFetch.Call | index.ts:148-215 | a request that builds is dispatched and the call settles as `Settle` decides for the transport outcome; one that does not build rejects with the building error, without the transport or the error interceptor. The dispatched method is the verb called and GET dispatches no body. A body verb sends its object argument, or else `options.data`: a mapping as its JSON text, FormData as itself. Without a request interceptor the URL is the one `send` built |
| ModernFetch.StringifyFailureRejectsBeforeDispatch | index.ts:89-101 | for a body verb, object data whose stringify throws rejects the call with that error before dispatch, whenever the request interceptor resolves (or there is none) |
| DesonFetch.NewRequest | dist/index.js:21-28 | a missing url becomes `""`; the other options are kept |
| DesonFetch.Create | dist/index.js:220-241 | the handle URL is the normalised baseUrl, then `"/"` and the normalised prefix, each present exactly when its setting is truthy, then `"/" + removeSlash(url)` for a truthy resource path; without one, the URL is the base/prefix part; with neither base nor prefix, it is the normalised path alone |
| DesonFetch.RequestBase | dist/index.js:122-123 | the handle URL is a prefix of every verb's URL, followed by `"/" + removeSlash(reqUrl)` exactly when `reqUrl` is truthy |
| DesonFetch.ItemUrl | dist/index.js:134-165 | the request base starts the URL; something follows it exactly when the id is truthy, and then it is `"/"` plus the id converted but not slash-stripped |
| DesonFetch.ItemIdRecoverable | dist/index.js:137 | a positive number id reads back from what follows the request base and one `/` |
| DesonFetch.GetUrl | dist/index.js:175-190 | a string param is appended after `removeSlash` with no `/` of its own, an object param appends `"?"` and its query, and anything else adds nothing |
| DesonFetch.GetStringParamHasNoSeparator | dist/index.js:182-184 | `get("/" + m + "/")` appends bare `m`, while `getOne(m)` inserts a `/` before a non-empty `m` |
| DesonFetch.GetOneUrl | dist/index.js:196-206 | the query follows the item URL exactly when the params are truthy |
| DesonFetch.GetOneQueryRecoverable | dist/index.js:199-204 | splitting a `getOne` URL at its first `?` gives back the item URL and exactly the params' query, which is present exactly for truthy params |
| DesonFetch.Settle | dist/index.js:82-114 | a transport error yields the error interceptor's value. The response interceptor's awaited result is returned, and its rejection is caught too. Otherwise the response type alone decides, whatever the status: json/undefined reads JSON, text reads text, stream returns the response, and anything else yields undefined |
| DesonFetch.Fetch | dist/index.js:30-115 | every call is dispatched to the given URL with the merged fetch options; a failing stringify sends no body; headers and body follow the table under the logging policy; the result is the settlement of the transport outcome |
| DesonFetch.Post | dist/index.js:121-128 | `post` sends POST to the request base. A mapping goes out as its JSON text, or with no body when it cannot be stringified; FormData goes out as itself; anything else sends no body. A Content-Type is sent exactly when one was set or the data is falsy or a mapping; when none was set, a falsy or mapping payload gets exactly the `Content-type: application/json;charset=utf-8` default. The call is `fetch` on that URL and verb, so its dispatched options and its result are `Fetch`'s |
| DesonFetch.Delete | dist/index.js:134-141 | `delete` sends DELETE to the item URL. A mapping goes out as its JSON text, or with no body when it cannot be stringified; FormData goes out as itself; anything else sends no body. A Content-Type is sent exactly when one was set or the data is falsy or a mapping; when none was set, a falsy or mapping payload gets exactly the `Content-type: application/json;charset=utf-8` default. The call is `fetch` on that URL and verb, so its dispatched options and its result are `Fetch`'s |
| DesonFetch.Put | dist/index.js:148-155 | `put` sends PUT to the item URL. A mapping goes out as its JSON text, or with no body when it cannot be stringified; FormData goes out as itself; anything else sends no body. A Content-Type is sent exactly when one was set or the data is falsy or a mapping; when none was set, a falsy or mapping payload gets exactly the `Content-type: application/json;charset=utf-8` default. The call is `fetch` on that URL and verb, so its dispatched options and its result are `Fetch`'s |
| DesonFetch.Patch | dist/index.js:162-169 | `patch` sends PATCH to the item URL. A mapping goes out as its JSON text, or with no body when it cannot be stringified; FormData goes out as itself; anything else sends no body. A Content-Type is sent exactly when one was set or the data is falsy or a mapping; when none was set, a falsy or mapping payload gets exactly the `Content-type: application/json;charset=utf-8` default. The call is `fetch` on that URL and verb, so its dispatched options and its result are `Fetch`'s |
| DesonFetch.Get | dist/index.js:175-190 | `get` sends GET to the `get` URL with no body and always with a Content-Type; when the merged headers have none, exactly the urlencoded default is appended. The call is `fetch` on that URL with GET, so its dispatched options and its result are `Fetch`'s |
| DesonFetch.GetOne | dist/index.js:196-206 | `getOne` sends GET to the `getOne` URL with no body and always with a Content-Type; when the merged headers have none, exactly the urlencoded default is appended. The call is `fetch` on that URL with GET, so its dispatched options and its result are `Fetch`'s |
| Variants.ComposeUrlInjective | index.ts:229-241 | for a fixed baseUrl and prefix, distinct resource paths give distinct handle URLs |
| Variants.CreateAgreesIffPathNormalised | dist/index.js:220-241 | the two `create`s give the same URL exactly when the resource path given to index.ts is already in dist/index.js's normal form |
| Variants.CreateWithPaddedSegments | index.ts:229-241 | with slash-padded base, prefix and resource, index.ts keeps the resource's slashes while dist/index.js strips the trailing one |
| Variants.ComposePadded | dist/index.js:224-227 | slash-padded baseUrl and prefix are joined by exactly one `/` ahead of the tail |
| Variants.NonOkResponseDiffers | index.ts:123-138 | with no response interceptor, a non-ok response is a rejection in index.ts but is read as JSON in dist/index.js |
| Variants.BodyVerbsSendSameRequest | index.ts:74-110 | with no request interceptor and the same headers, an index.ts body-verb call with object data is dispatched exactly when its stringify does not fail, and then sends the same headers and body as dist/index.js |
| Variants.ResponseHookRejectionDiffers | dist/index.js:90-110 | a rejecting response interceptor makes the index.ts call reject without the error interceptor; dist/index.js returns the error interceptor's value instead |

## Left out

- The network call and body decoding (`fetch`, `response.json()`, `text()`, `blob()`, `formData()`, `arrayBuffer()`) are function parameters of `Host`. The raw `request` export only forwards to `fetch` and is not modelled.
- `URLSearchParams` serialisation and `JSON.stringify` are host functions passed as parameters. Their encoding is not modelled; a throwing `JSON.stringify` is an `Abrupt` completion.
- The `FormData && data instanceof FormData` test is the `Form` payload tag.
- The `console.log` in dist/index.js's stringify failure path has no effect on the result and is not modelled.
- DesonFetch.ReqOption: has no `data` field. dist/index.js builds the verbs' options as `{data, ...reqOption}`, so a `data` key inside `reqOption` would override the `data` argument; the typed `RequestOption` of dist/index.d.ts has no such key, and the model keeps the argument.
- `send` mutates the caller's options object (`delete body.data`, `body.data = data`). `ModernFetch.Send` returns new options instead, so that aliasing is not modelled.
- `dist/index.d.ts` holds only type declarations and is not part of this model.
- Numbers are integers. Fractions, `NaN`, `Infinity` and exponent notation in `String(n)` are not modelled.
- `null` arguments are treated like `undefined`. Arrays and other objects are `Map` payloads.
- Header value normalisation and the exceptions `Headers` throws for invalid names or values are not modelled. `new Headers(record)` takes the record's entries in order.
- A Content-Type that exists but is empty is treated as absent, so the default is appended after it. `HeaderLists.AppendAfterEmptyContentType` states this, and the Content-Type/body table follows it.
- Header, method or body keys inside `fetchOptions`, which the spread would let override the computed ones, are not modelled. `Outgoing.options` carries the merged fetch options alongside.
- Records.Put: appends every new key last, while JavaScript lists keys that are array indices (`"0"`, `"1"`, …) first, in ascending order. This changes only the order of header entries, never which value `get` reports for a name.
- `method.toUpperCase()` is the identity here, because the verbs are the upper-case constants of `ContentRules.Method`.
- A response interceptor that throws synchronously instead of returning a rejected promise (index.ts:121) is not modelled; its throw would reach the `catch`, while the model's hook is a function to a completion that is returned uncaught. A request interceptor's synchronous throw needs nothing extra: the `async` wrapper turns it into a rejection, which is an `Abrupt` completion.
- In index.ts the error interceptor's return value is discarded. `ModernFetch.Caught` records only whether it ran and whether it threw.
- ModernFetch.Call: the verbs `post`, `delete`, `put`, `patch` and `get` (index.ts:176-215) are `Call` with the verb fixed, not separate members.
- The code has none of the following, so none is modelled: global interceptor registration, a payload transform hook, a `text/plain` default for string bodies, suppression of `"?"` for an empty query, or a dedicated serialization error type. An empty GET mapping still produces a trailing `"?"`.

=== FILE: content.dfy ===
/**
 The Content-Type and body decision both variants make before dispatch: which body is sent
 for a verb and a payload, and which default Content-Type is appended when the caller's
 headers carry none. The two variants differ only in what a failing `JSON.stringify` does.
 */
module ContentRules {
  import opened Js
  import opened HeaderLists
  import Records

  datatype Method = GET | HEAD | POST | PUT | PATCH | DELETE

  /** GET and HEAD requests are sent without a body. */
  predicate Bodyless(m: Method) {
    m == GET || m == HEAD
  }

  /** What is handed to the transport as `body`: nothing, the FormData object itself, or JSON text. */
  datatype Body = NoBody | FormBody | JsonText(text: string)

  /** index.ts rejects the call when `JSON.stringify` throws; dist/index.js logs the error and
      sends the request with an undefined body. */
  datatype OnStringifyFailure = RejectCall | SendWithoutBody

  /** The default for bodyless methods, spelled as the code spells it (without a final "d"). */
  const FormUrlencode := "application/x-www-form-urlencode"
  const JsonUtf8 := "application/json;charset=utf-8"
  /** The name spelling used when the JSON default is appended. */
  const JsonHeaderName := "Content-type"

  datatype Prepared = Prepared(headers: HeaderList, body: Body)

  /** The request handed to the transport. */
  datatype Outgoing = Outgoing(url: string, verb: Method, headers: HeaderList, body: Body,
                               options: Records.Record<string>)

  /** The host-library code the pipeline calls and this model does not look into:
      `new URLSearchParams(x).toString()`, `JSON.stringify`, the `fetch` transport, and the
      response body readers. */
  datatype Host = Host(query: Payload -> string,
                       stringify: Payload -> Completion<string>,
                       transport: Outgoing -> Completion<Response>,
                       read: (Response, BodyReader) -> Completion<JsValue>)

  /** The default Content-Type the table calls for, if the headers have none: the urlencoded
      type for GET and HEAD, JSON for a body verb with no data or with object data, and none
      for FormData or for a truthy string or number. */
  function DefaultType(verb: Method, data: Payload): Option<(string, string)> {
    if Bodyless(verb) then Some((ContentType, FormUrlencode))
    else if !Truthy(data) || data.Map? then Some((JsonHeaderName, JsonUtf8))
    else None
  }

  /** The body-and-header step of `fetch` (index.ts:74-110, dist/index.js:36-80). */
  function Prepare(verb: Method, data: Payload, h: HeaderList,
                   stringify: Payload -> Completion<string>, onFailure: OnStringifyFailure)
    : (r: Completion<Prepared>)
    // a call fails here only through a stringify failure under the rejecting policy, with its reason
    ensures r.Abrupt? <==> onFailure == RejectCall && !Bodyless(verb) && data.Map? && stringify(data).Abrupt?
    ensures r.Abrupt? ==> r.reason == stringify(data).reason
    // headers: an existing Content-Type is never touched; otherwise exactly the default is appended
    ensures r.Normal? && HasContentType(h) ==> r.value.headers == h
    ensures r.Normal? && !HasContentType(h) ==>
              r.value.headers == (match DefaultType(verb, data)
                                  case Some(nv) => Append(h, nv.0, nv.1)
                                  case None => h)
    // body: FormData passes through, object data becomes its JSON text, nothing else is sent
    ensures r.Normal? ==> (r.value.body.FormBody? <==> !Bodyless(verb) && data.Form?)
    ensures r.Normal? && r.value.body.JsonText? ==>
              !Bodyless(verb) && data.Map? && stringify(data) == Normal(r.value.body.text)
    ensures !Bodyless(verb) && data.Map? && stringify(data).Normal? ==>
              r.Normal? && r.value.body == JsonText(stringify(data).value)
    ensures r.Normal? && (Bodyless(verb) || !Truthy(data) || IsScalar(data)) ==> r.value.body == NoBody
  {
    var contentType := Get(h, ContentType);
    if verb == GET || verb == HEAD then
      if !Present(contentType) then Normal(Prepared(Append(h, ContentType, FormUrlencode), NoBody))
      else Normal(Prepared(h, NoBody))
    else if Truthy(data) then
      if data.Form? then Normal(Prepared(h, FormBody))
      else if !Present(contentType) then
        if IsObject(data) then
          var h' := Append(h, JsonHeaderName, JsonUtf8);
          match stringify(data)
          case Normal(text) => Normal(Prepared(h', JsonText(text)))
          case Abrupt(e) => if onFailure == RejectCall then Abrupt(e) else Normal(Prepared(h', NoBody))
        else Normal(Prepared(h, NoBody))
      else
        if IsObject(data) then
          match stringify(data)
          case Normal(text) => Normal(Prepared(h, JsonText(text)))
          case Abrupt(e) => if onFailure == RejectCall then Abrupt(e) else Normal(Prepared(h, NoBody))
        else Normal(Prepared(h, NoBody))
    else if !Present(contentType) then Normal(Prepared(Append(h, JsonHeaderName, JsonUtf8), NoBody))
    else Normal(Prepared(h, NoBody))
  }

  /** No existing Content-Type is ever overwritten: whatever `get('Content-Type')` reported
      before the step, it still reports afterwards. */
  lemma PrepareKeepsExistingContentType(verb: Method, data: Payload, h: HeaderList,
                                        stringify: Payload -> Completion<string>,
                                        onFailure: OnStringifyFailure)
    requires HasContentType(h)
    requires Prepare(verb, data, h, stringify, onFailure).Normal?
    ensures Get(Prepare(verb, data, h, stringify, onFailure).value.headers, ContentType) == Get(h, ContentType)
  {
  }

  /** After the step a request carries a Content-Type, unless it is a body verb sending
      FormData (the transport then writes the multipart boundary itself) or a truthy string or
      number, which the table leaves untyped and unsent. */
  lemma PrepareLeavesContentType(verb: Method, data: Payload, h: HeaderList,
                                 stringify: Payload -> Completion<string>,
                                 onFailure: OnStringifyFailure)
    requires Prepare(verb, data, h, stringify, onFailure).Normal?
    ensures HasContentType(Prepare(verb, data, h, stringify, onFailure).value.headers)
            <==> HasContentType(h) || Bodyless(verb) || !Truthy(data) || data.Map?
  {
    var r := Prepare(verb, data, h, stringify, onFailure).value;
    if !HasContentType(h) {
      match DefaultType(verb, data)
      case Some(nv) =>
        AppendContentTypeMakesPresent(h, nv.0, nv.1);
      case None =>
    }
  }

  /** The two failure policies agree on every input except a failing stringify of object data
      for a body verb, where index.ts rejects and dist/index.js sends no body. */
  lemma PoliciesDifferOnlyOnStringifyFailure(verb: Method, data: Payload, h: HeaderList,
                                             stringify: Payload -> Completion<string>)
    ensures Prepare(verb, data, h, stringify, RejectCall) != Prepare(verb, data, h, stringify, SendWithoutBody)
            <==> !Bodyless(verb) && data.Map? && stringify(data).Abrupt?
    ensures Prepare(verb, data, h, stringify, SendWithoutBody).Normal?
  {
  }
}

=== FILE: decimal.dfy ===
/**
 Number-to-string conversion for integer numbers, as `String(n)` renders an integer id
 that is appended to a URL: plain decimal digits, no leading zeros, a `-` sign when negative.
 */
module Decimal {

  predicate IsDigit(c: char) {
    '0' <= c <= '9'
  }

  predicate AllDigits(s: string) {
    forall i :: 0 <= i < |s| ==> IsDigit(s[i])
  }

  function DigitChar(d: nat): (c: char)
    requires d < 10
    ensures IsDigit(c) && c as int - '0' as int == d
  {
    (48 + d) as char
  }

  /** The value a string of decimal digits denotes. */
  function Value(s: string): nat
    requires AllDigits(s)
  {
    if |s| == 0 then 0 else Value(s[..|s| - 1]) * 10 + (s[|s| - 1] as int - '0' as int)
  }

  /** The shortest decimal rendering of a natural number. */
  function NatToDecimal(n: nat): (r: string)
    ensures |r| > 0 && AllDigits(r)
    ensures (r[0] == '0') <==> (n == 0)
    ensures Value(r) == n
  {
    if n < 10 then [DigitChar(n)]
    else
      var r := NatToDecimal(n / 10) + [DigitChar(n % 10)];
      assert r[..|r| - 1] == NatToDecimal(n / 10);
      r
  }

  /** The rendering of any integer: a minus sign followed by the digits of its magnitude. */
  function IntToDecimal(n: int): (r: string)
    ensures r != "" && '?' !in r && '/' !in r
    ensures n >= 0 ==> AllDigits(r) && Value(r) == n
    ensures n < 0 ==> r[0] == '-' && AllDigits(r[1..]) && Value(r[1..]) == -n
  {
    if n < 0 then
      var r := "-" + NatToDecimal(-n);
      assert r[1..] == NatToDecimal(-n);
      r
    else NatToDecimal(n)
  }

  /** Decimal renderings are canonical: two numbers render alike only if they are equal. */
  lemma IntToDecimalInjective(m: int, n: int)
    requires IntToDecimal(m) == IntToDecimal(n)
    ensures m == n
  {
  }
}

=== FILE: deson.dfy ===
/**
 The older compiled build, dist/index.js: `DesonFetch.create`, the `Request` constructor, the
 per-verb URL composition of `post`, `delete`, `put`, `patch`, `get` and `getOne`, and
 `fetch` with its outcome switch. There is no request interceptor and no ok-check.
 */
module DesonFetch {
  import opened Js
  import opened Text
  import opened Records
  import opened HeaderLists
  import opened ContentRules
  import opened Urls
  import Decimal

  /** Per-call options: an optional sub-path `url`, headers, fetch options, response type. */
  datatype ReqOption = ReqOption(url: Option<string>, headers: Record<string>,
                                 fetchOptions: Record<string>, responseType: Option<string>)

  /** What the response interceptor receives besides the response (dist/index.js:91-93). */
  datatype ResponseConfig = ResponseConfig(headers: Record<string>, responseType: Option<string>,
                                           fetchOptions: Record<string>, url: string)

  /** The two optional hooks; each result is the completion of the hook call, settled. */
  datatype Interceptors = Interceptors(response: Option<(Response, ResponseConfig) -> Completion<JsValue>>,
                                       error: Option<JsValue -> Completion<JsValue>>)

  /** The options of `new DesonFetch(...)`; absent header or option objects are empty. */
  datatype FactoryOptions = FactoryOptions(baseUrl: Option<string>, prefix: Option<string>,
                                           headers: Record<string>, fetchOptions: Record<string>,
                                           hooks: Interceptors)

  datatype Handle = Handle(url: string, headers: Record<string>, fetchOptions: Record<string>,
                           hooks: Interceptors)

  /** `new Request(options)` (dist/index.js:21-28): a missing url becomes the empty string. */
  function NewRequest(url: Option<string>, headers: Record<string>, fetchOptions: Record<string>,
                      hooks: Interceptors): (h: Handle)
    ensures url.None? ==> h.url == ""
    ensures url.Some? ==> h.url == url.value
    ensures h.headers == headers && h.fetchOptions == fetchOptions && h.hooks == hooks
  {
    Handle(if url.Some? then url.value else "", headers, fetchOptions, hooks)
  }

  /** The resource path as `create` normalises it: `"/" + removeSlash(url)`, or nothing. */
  function ResourcePath(url: Option<string>): string {
    if Present(url) then "/" + RemoveSlash(url.value) else ""
  }

  /** `create(url)` (dist/index.js:220-241). */
  function Create(o: FactoryOptions, url: Option<string>): (h: Handle)
    // a truthy resource path ends the handle URL as exactly one normalised segment
    ensures Present(url) ==>
              var seg := "/" + RemoveSlash(url.value);
              |seg| <= |h.url| && h.url[|h.url| - |seg|..] == seg
    // the normalised base, then `"/"` and the normalised prefix, then the normalised path
    ensures h.url == BasePart(o.baseUrl) + PrefixPart(o.prefix) + ResourcePath(url)
    // without one, the handle URL is just the base and prefix part
    ensures !Present(url) ==> h.url == ComposeUrl(o.baseUrl, o.prefix, "")
    ensures !Present(o.baseUrl) && !Present(o.prefix) ==> h.url == ResourcePath(url)
    ensures h.headers == o.headers && h.fetchOptions == o.fetchOptions && h.hooks == o.hooks
  {
    NewRequest(Some(ComposeUrl(o.baseUrl, o.prefix, ResourcePath(url))), o.headers, o.fetchOptions, o.hooks)
  }

  /** The URL every verb starts from: the handle URL, then `"/" + removeSlash(reqUrl)` when the
      per-call `url` is truthy. */
  function RequestBase(h: Handle, reqUrl: Option<string>): (u: string)
    ensures |h.url| <= |u| && u[..|h.url|] == h.url
    ensures Present(reqUrl) ==> u == h.url + "/" + RemoveSlash(reqUrl.value)
    ensures !Present(reqUrl) ==> u == h.url
  {
    if Present(reqUrl) then h.url + "/" + RemoveSlash(reqUrl.value) else h.url
  }

  /** `delete`, `put` and `patch` (dist/index.js:137, 151, 165): `"/" + id` when the id is
      truthy, the id converted to a string but not slash-stripped. */
  function ItemUrl(h: Handle, id: Payload, reqUrl: Option<string>): (u: string)
    ensures var base := RequestBase(h, reqUrl);
            && |base| <= |u| && u[..|base|] == base
            && (Truthy(id) <==> |base| < |u|)
            && (Truthy(id) ==> u[|base|..] == "/" + ToJsString(id))
  {
    var url := RequestBase(h, reqUrl);
    if Truthy(id) then url + ("/" + ToJsString(id)) else url
  }

  /** A positive number id is recovered from a `delete`/`put`/`patch` URL: what follows the
      request base and one `/` is the id's decimal numeral. */
  lemma ItemIdRecoverable(h: Handle, n: int, reqUrl: Option<string>)
    requires n > 0
    ensures var base := RequestBase(h, reqUrl);
            var u := ItemUrl(h, Num(n), reqUrl);
            |base| < |u| && u[..|base| + 1] == base + "/"
            && Decimal.AllDigits(u[|base| + 1..]) && Decimal.Value(u[|base| + 1..]) == n
  {
    var base := RequestBase(h, reqUrl);
    var u := ItemUrl(h, Num(n), reqUrl);
    assert u[|base| + 1..] == ToJsString(Num(n));
  }

  /** `get(params)` (dist/index.js:175-190): a string is appended after `removeSlash` with no
      separating `/`, an object appends `"?"` and its query, anything else adds nothing. */
  function GetUrl(h: Handle, params: Payload, reqUrl: Option<string>, query: Payload -> string)
    : (u: string)
    ensures params.Str? ==> u == RequestBase(h, reqUrl) + RemoveSlash(params.s)
    ensures IsObject(params) ==> u == RequestBase(h, reqUrl) + "?" + query(params)
    ensures !params.Str? && !IsObject(params) ==> u == RequestBase(h, reqUrl)
  {
    var url := RequestBase(h, reqUrl);
    if params.Str? then url + RemoveSlash(params.s)
    else if IsObject(params) then url + "?" + query(params)
    else url
  }

  /** A string param is joined to the URL without a `/` of its own: `get("/5/")` on a handle
      for `"users"` requests `"users5"`, while `getOne("5")` requests `"users/5"`. */
  lemma GetStringParamHasNoSeparator(h: Handle, m: string, reqUrl: Option<string>,
                                     query: Payload -> string)
    ensures GetUrl(h, Str("/" + m + "/"), reqUrl, query) == RequestBase(h, reqUrl) + m
    ensures m != "" ==> GetOneUrl(h, Str(m), Absent, reqUrl, query) == RequestBase(h, reqUrl) + ("/" + m)
    ensures m == "" ==> GetOneUrl(h, Str(m), Absent, reqUrl, query) == RequestBase(h, reqUrl)
  {
    RemoveSlashStripsOneEach(m);
    var base := RequestBase(h, reqUrl);
    var u := ItemUrl(h, Str(m), reqUrl);
    if m != "" {
      assert u == u[..|base|] + u[|base|..];
    }
  }

  /** `getOne(id, params)` (dist/index.js:196-206): `"/" + id` for a truthy id, then `"?"` and
      the query for truthy params. */
  function GetOneUrl(h: Handle, id: Payload, params: Payload, reqUrl: Option<string>,
                     query: Payload -> string): (u: string)
    ensures Truthy(params) ==> u == ItemUrl(h, id, reqUrl) + "?" + query(params)
    ensures !Truthy(params) ==> u == ItemUrl(h, id, reqUrl)
  {
    var url := RequestBase(h, reqUrl);
    var url := if Truthy(id) then url + ("/" + ToJsString(id)) else url;
    if Truthy(params) then url + "?" + query(params) else url
  }

  /** Splitting a `getOne` URL at its first `?` recovers the item URL and exactly the query of
      the params, which is present exactly when the params are truthy. */
  lemma GetOneQueryRecoverable(h: Handle, id: Payload, params: Payload, reqUrl: Option<string>,
                               query: Payload -> string)
    requires '?' !in ItemUrl(h, id, reqUrl)
    ensures SplitQuery(GetOneUrl(h, id, params, reqUrl, query))
            == (ItemUrl(h, id, reqUrl), if Truthy(params) then Some(query(params)) else None)
  {
    SplitQueryRoundTrip(ItemUrl(h, id, reqUrl), if Truthy(params) then Some(query(params)) else None);
  }

  /** The `catch` block (dist/index.js:107-114): the error interceptor's result is the call's. */
  function Caught(hooks: Interceptors, e: JsValue): Completion<JsValue> {
    match hooks.error
    case Some(f) => f(e)
    case None => Abrupt(e)
  }

  /** An awaited step inside the `try` block: a rejection goes to `Caught`. */
  function Awaited(hooks: Interceptors, c: Completion<JsValue>): Completion<JsValue> {
    match c
    case Normal(v) => Normal(v)
    case Abrupt(e) => Caught(hooks, e)
  }

  /** The `try` block after the transport call (dist/index.js:82-106). */
  function Settle(sent: Completion<Response>, config: ResponseConfig, hooks: Interceptors,
                  read: (Response, BodyReader) -> Completion<JsValue>): (r: Completion<JsValue>)
    // a transport failure goes to the error interceptor, whose value becomes the call's result
    ensures sent.Abrupt? && hooks.error.Some? ==> r == hooks.error.value(sent.reason)
    ensures sent.Abrupt? && hooks.error.None? ==> r == Abrupt(sent.reason)
    // the response interceptor's awaited result is returned; its rejection is caught too
    ensures sent.Normal? && hooks.response.Some? ==>
              r == Awaited(hooks, hooks.response.value(sent.value, config))
    // without it, the response type alone decides, whatever the status
    ensures sent.Normal? && hooks.response.None? && config.responseType in {None, Some("json")} ==>
              r == Awaited(hooks, read(sent.value, ReadJson))
    ensures sent.Normal? && hooks.response.None? && config.responseType == Some("text") ==>
              r == Awaited(hooks, read(sent.value, ReadText))
    ensures sent.Normal? && hooks.response.None? && config.responseType == Some("stream") ==>
              r == Normal(ResponseObject(sent.value))
    ensures sent.Normal? && hooks.response.None?
            && config.responseType !in {None, Some("json"), Some("text"), Some("stream")} ==>
              r == Normal(Undefined)
  {
    match sent
    case Abrupt(e) => Caught(hooks, e)
    case Normal(response) =>
      if hooks.response.Some? then Awaited(hooks, hooks.response.value(response, config))
      else
        match config.responseType
        case None => Awaited(hooks, read(response, ReadJson))
        case Some("json") => Awaited(hooks, read(response, ReadJson))
        case Some("text") => Awaited(hooks, read(response, ReadText))
        case Some("stream") => Normal(ResponseObject(response))
        case _ => Normal(Undefined)
  }

  /** One call: the request dispatched and how the call settled. */
  datatype Trace = Trace(sent: Outgoing, result: Completion<JsValue>)

  /** `fetch(url, method, options)` (dist/index.js:30-115): merge, decide Content-Type and body,
      dispatch, settle. Every call is dispatched. */
  function Fetch(h: Handle, url: string, verb: Method, data: Payload, opt: ReqOption, host: Host)
    : (tr: Trace)
    ensures tr.sent.url == url && tr.sent.verb == verb
    ensures tr.sent.options == Assign(h.fetchOptions, opt.fetchOptions)
    // a JSON stringify failure does not stop the request: it goes out without a body
    ensures !Bodyless(verb) && data.Map? && host.stringify(data).Abrupt? ==> tr.sent.body == NoBody
    ensures Prepare(verb, data, FromRecord(Assign(h.headers, opt.headers)), host.stringify, SendWithoutBody)
            == Normal(Prepared(tr.sent.headers, tr.sent.body))
    ensures tr.result == Settle(host.transport(tr.sent),
                                ResponseConfig(Assign(h.headers, opt.headers), opt.responseType,
                                               Assign(h.fetchOptions, opt.fetchOptions), url),
                                h.hooks, host.read)
  {
    var merged := Assign(h.headers, opt.headers);
    var fetchOptions := Assign(h.fetchOptions, opt.fetchOptions);
    var p := Prepare(verb, data, FromRecord(merged), host.stringify, SendWithoutBody);
    var out := Outgoing(url, verb, p.value.headers, p.value.body, fetchOptions);
    Trace(out, Settle(host.transport(out), ResponseConfig(merged, opt.responseType, fetchOptions, url),
                      h.hooks, host.read))
  }

  /** The headers `fetch` merges from the instance defaults and the per-call options. */
  function Merged(h: Handle, opt: ReqOption): HeaderList {
    FromRecord(Assign(h.headers, opt.headers))
  }

  /** `post(data, reqOption)`: a mapping goes out as its JSON text (or without a body when it
      cannot be stringified), FormData as itself; a Content-Type is sent unless the data is a
      truthy string or number, or FormData, and none was set. */
  function Post(h: Handle, data: Payload, opt: ReqOption, host: Host): (tr: Trace)
    // the verb is `fetch` on its URL and verb: dispatch, options, headers and result alike
    ensures tr == Fetch(h, RequestBase(h, opt.url), POST, data, opt, host)
    ensures tr.sent.url == RequestBase(h, opt.url) && tr.sent.verb == POST
    ensures data.Map? ==> tr.sent.body == (match host.stringify(data)
                                           case Normal(text) => JsonText(text)
                                           case Abrupt(_) => NoBody)
    ensures tr.sent.body.FormBody? <==> data.Form?
    ensures !data.Map? && !data.Form? ==> tr.sent.body == NoBody
    ensures HasContentType(tr.sent.headers) <==> HasContentType(Merged(h, opt)) || !Truthy(data) || data.Map?
    ensures !HasContentType(Merged(h, opt)) && (!Truthy(data) || data.Map?) ==>
              tr.sent.headers == Append(Merged(h, opt), JsonHeaderName, JsonUtf8)
  {
    PrepareLeavesContentType(POST, data, Merged(h, opt), host.stringify, SendWithoutBody);
    Fetch(h, RequestBase(h, opt.url), POST, data, opt, host)
  }

  /** `delete(id, data, reqOption)`: sent to the request base, followed by `"/" + id` for a
      truthy id, with `data` as the body exactly as `post` sends it. */
  function Delete(h: Handle, id: Payload, data: Payload, opt: ReqOption, host: Host): (tr: Trace)
    // the verb is `fetch` on its URL and verb: dispatch, options, headers and result alike
    ensures tr == Fetch(h, ItemUrl(h, id, opt.url), DELETE, data, opt, host)
    ensures tr.sent.url == ItemUrl(h, id, opt.url) && tr.sent.verb == DELETE
    ensures data.Map? ==> tr.sent.body == (match host.stringify(data)
                                           case Normal(text) => JsonText(text)
                                           case Abrupt(_) => NoBody)
    ensures tr.sent.body.FormBody? <==> data.Form?
    ensures !data.Map? && !data.Form? ==> tr.sent.body == NoBody
    ensures HasContentType(tr.sent.headers) <==> HasContentType(Merged(h, opt)) || !Truthy(data) || data.Map?
    ensures !HasContentType(Merged(h, opt)) && (!Truthy(data) || data.Map?) ==>
              tr.sent.headers == Append(Merged(h, opt), JsonHeaderName, JsonUtf8)
  {
    PrepareLeavesContentType(DELETE, data, Merged(h, opt), host.stringify, SendWithoutBody);
    Fetch(h, ItemUrl(h, id, opt.url), DELETE, data, opt, host)
  }

  /** `put(id, data, reqOption)`: as `delete`, with PUT. */
  function Put(h: Handle, id: Payload, data: Payload, opt: ReqOption, host: Host): (tr: Trace)
    // the verb is `fetch` on its URL and verb: dispatch, options, headers and result alike
    ensures tr == Fetch(h, ItemUrl(h, id, opt.url), PUT, data, opt, host)
    ensures tr.sent.url == ItemUrl(h, id, opt.url) && tr.sent.verb == PUT
    ensures data.Map? ==> tr.sent.body == (match host.stringify(data)
                                           case Normal(text) => JsonText(text)
                                           case Abrupt(_) => NoBody)
    ensures tr.sent.body.FormBody? <==> data.Form?
    ensures !data.Map? && !data.Form? ==> tr.sent.body == NoBody
    ensures HasContentType(tr.sent.headers) <==> HasContentType(Merged(h, opt)) || !Truthy(data) || data.Map?
    ensures !HasContentType(Merged(h, opt)) && (!Truthy(data) || data.Map?) ==>
              tr.sent.headers == Append(Merged(h, opt), JsonHeaderName, JsonUtf8)
  {
    PrepareLeavesContentType(PUT, data, Merged(h, opt), host.stringify, SendWithoutBody);
    Fetch(h, ItemUrl(h, id, opt.url), PUT, data, opt, host)
  }

  /** `patch(id, data, reqOption)`: as `delete`, with PATCH. */
  function Patch(h: Handle, id: Payload, data: Payload, opt: ReqOption, host: Host): (tr: Trace)
    // the verb is `fetch` on its URL and verb: dispatch, options, headers and result alike
    ensures tr == Fetch(h, ItemUrl(h, id, opt.url), PATCH, data, opt, host)
    ensures tr.sent.url == ItemUrl(h, id, opt.url) && tr.sent.verb == PATCH
    ensures data.Map? ==> tr.sent.body == (match host.stringify(data)
                                           case Normal(text) => JsonText(text)
                                           case Abrupt(_) => NoBody)
    ensures tr.sent.body.FormBody? <==> data.Form?
    ensures !data.Map? && !data.Form? ==> tr.sent.body == NoBody
    ensures HasContentType(tr.sent.headers) <==> HasContentType(Merged(h, opt)) || !Truthy(data) || data.Map?
    ensures !HasContentType(Merged(h, opt)) && (!Truthy(data) || data.Map?) ==>
              tr.sent.headers == Append(Merged(h, opt), JsonHeaderName, JsonUtf8)
  {
    PrepareLeavesContentType(PATCH, data, Merged(h, opt), host.stringify, SendWithoutBody);
    Fetch(h, ItemUrl(h, id, opt.url), PATCH, data, opt, host)
  }

  /** `get(params, reqOption)`: never a body, and always a Content-Type, the urlencoded default
      appended when the merged headers have none. */
  function Get(h: Handle, params: Payload, opt: ReqOption, host: Host): (tr: Trace)
    // the verb is `fetch` on its URL and verb: dispatch, options, headers and result alike
    ensures tr == Fetch(h, GetUrl(h, params, opt.url, host.query), GET, Absent, opt, host)
    ensures tr.sent.url == GetUrl(h, params, opt.url, host.query) && tr.sent.verb == GET
    ensures tr.sent.body == NoBody
    ensures HasContentType(tr.sent.headers)
    ensures !HasContentType(Merged(h, opt)) ==>
              tr.sent.headers == Append(Merged(h, opt), ContentType, FormUrlencode)
  {
    PrepareLeavesContentType(GET, Absent, Merged(h, opt), host.stringify, SendWithoutBody);
    Fetch(h, GetUrl(h, params, opt.url, host.query), GET, Absent, opt, host)
  }

  /** `getOne(id, params, reqOption)`: as `get`, on the `getOne` URL. */
  function GetOne(h: Handle, id: Payload, params: Payload, opt: ReqOption, host: Host): (tr: Trace)
    // the verb is `fetch` on its URL and verb: dispatch, options, headers and result alike
    ensures tr == Fetch(h, GetOneUrl(h, id, params, opt.url, host.query), GET, Absent, opt, host)
    ensures tr.sent.url == GetOneUrl(h, id, params, opt.url, host.query) && tr.sent.verb == GET
    ensures tr.sent.body == NoBody
    ensures HasContentType(tr.sent.headers)
    ensures !HasContentType(Merged(h, opt)) ==>
              tr.sent.headers == Append(Merged(h, opt), ContentType, FormUrlencode)
  {
    PrepareLeavesContentType(GET, Absent, Merged(h, opt), host.stringify, SendWithoutBody);
    Fetch(h, GetOneUrl(h, id, params, opt.url, host.query), GET, Absent, opt, host)
  }
}

=== FILE: headers.dfy ===
/**
 The `Headers` object of the WHATWG Fetch Standard (section 5.1, "Headers class"), as far as
 the pipeline uses it: construction from a record, `get` and `append`. Header names keep the
 spelling they were given, but `get` matches them case-insensitively and combines the values
 of all matching entries with ", ".
 */
module HeaderLists {
  import opened Js
  import opened Text
  import Records

  /** A header list: (name, value) entries in the order they were appended. */
  type HeaderList = seq<(string, string)>

  const ContentType := "Content-Type"

  /** `new Headers(record)` appends the record's own properties in order. */
  function FromRecord(r: Records.Record<string>): HeaderList {
    r
  }

  /** `headers.append(name, value)`: always a new entry, never a replacement. */
  function Append(h: HeaderList, name: string, value: string): HeaderList {
    h + [(name, value)]
  }

  /** Header names are compared byte-case-insensitively. */
  predicate SameName(a: string, b: string) {
    AsciiLower(a) == AsciiLower(b)
  }

  /** The values of the entries named `name` (in any case), in list order. */
  function Values(h: HeaderList, name: string): (vs: seq<string>)
    ensures |vs| <= |h|
    ensures vs == [] <==> forall i :: 0 <= i < |h| ==> !SameName(h[i].0, name)
    decreases |h|
  {
    if |h| == 0 then []
    else
      var last := h[|h| - 1];
      var front := Values(h[..|h| - 1], name);
      assert forall i :: 0 <= i < |h| - 1 ==> h[..|h| - 1][i] == h[i];
      if SameName(last.0, name) then front + [last.1] else front
  }

  /** `headers.get(name)`: `null` (here `None`) when no entry has the name, otherwise the
      matching values joined with ", ". */
  function Get(h: HeaderList, name: string): (r: Option<string>)
    ensures r.None? <==> forall i :: 0 <= i < |h| ==> !SameName(h[i].0, name)
    ensures (exists i :: 0 <= i < |h| && SameName(h[i].0, name) && h[i].1 != "") ==> r.Some? && r.value != ""
  {
    var vs := Values(h, name);
    if vs == [] then None
    else
      JoinEmptyIff(vs, ", ");
      ValuesNonEmptyEntry(h, name);
      Some(Join(vs, ", "))
  }

  lemma {:induction false} ValuesNonEmptyEntry(h: HeaderList, name: string)
    ensures (exists i :: 0 <= i < |h| && SameName(h[i].0, name) && h[i].1 != "")
            ==> exists j :: 0 <= j < |Values(h, name)| && Values(h, name)[j] != ""
    decreases |h|
  {
    if !exists i :: 0 <= i < |h| && SameName(h[i].0, name) && h[i].1 != "" {
      return;
    }
    var last := h[|h| - 1];
    if SameName(last.0, name) && last.1 != "" {
      assert Values(h, name)[|Values(h, name)| - 1] == last.1;
    } else {
      var i :| 0 <= i < |h| && SameName(h[i].0, name) && h[i].1 != "";
      assert i < |h| - 1 && h[..|h| - 1][i] == h[i];
      ValuesNonEmptyEntry(h[..|h| - 1], name);
      var j :| 0 <= j < |Values(h[..|h| - 1], name)| && Values(h[..|h| - 1], name)[j] != "";
      assert Values(h, name)[j] == Values(h[..|h| - 1], name)[j];
    }
  }

  /** Lookup ignores the case of the name asked for: any spelling of a name that compares
      equal case-insensitively sees the same entries and the same combined value. */
  lemma {:induction false} GetIgnoresNameCase(h: HeaderList, n1: string, n2: string)
    requires SameName(n1, n2)
    ensures Values(h, n1) == Values(h, n2)
    ensures Get(h, n1) == Get(h, n2)
    decreases |h|
  {
    if |h| > 0 {
      GetIgnoresNameCase(h[..|h| - 1], n1, n2);
    }
  }

  /** The truthiness test `if (!headers.get('Content-Type'))` of the pipeline, negated: a
      Content-Type is present and its combined value is not the empty string. */
  predicate HasContentType(h: HeaderList) {
    Present(Get(h, ContentType))
  }

  lemma ValuesAppend(h: HeaderList, name: string, value: string, query: string)
    ensures Values(Append(h, name, value), query)
            == Values(h, query) + (if SameName(name, query) then [value] else [])
  {
    assert Append(h, name, value)[..|h|] == h;
  }

  /** A Content-Type counts as absent exactly when no entry has that name, or the only such
      entry has the empty value (so an explicit empty Content-Type does not stop a default). */
  lemma {:induction false} NoContentTypeIff(h: HeaderList)
    ensures !HasContentType(h) <==> (Values(h, ContentType) == [] || Values(h, ContentType) == [""])
  {
    JoinEmptyIff(Values(h, ContentType), ", ");
    if |Values(h, ContentType)| == 1 {
      assert Join(Values(h, ContentType), ", ") == Values(h, ContentType)[0];
    }
  }

  /** Appending a non-empty Content-Type (in any spelling of the name) makes one present. */
  lemma AppendContentTypeMakesPresent(h: HeaderList, name: string, value: string)
    requires SameName(name, ContentType) && value != ""
    ensures HasContentType(Append(h, name, value))
  {
    var h' := Append(h, name, value);
    assert h'[|h|] == (name, value);
  }

  /** `append` adds without replacing: an existing empty Content-Type stays in the list, and
      `get` then reports it joined with the appended value. */
  lemma AppendAfterEmptyContentType(h: HeaderList, name: string, value: string)
    requires Values(h, ContentType) == [""] && SameName(name, ContentType)
    ensures Get(Append(h, name, value), ContentType) == Some(", " + value)
  {
    ValuesAppend(h, name, value, ContentType);
    assert Values(Append(h, name, value), ContentType) == ["", value];
    var vs: seq<string> := ["", value];
    assert vs[1..] == [value];
    assert Join(vs, ", ") == "" + ", " + Join([value], ", ");
    assert Join([value], ", ") == value;
    assert "" + ", " + value == ", " + value;
    assert Get(Append(h, name, value), ContentType) == Some(Join(vs, ", "));
  }
}

=== FILE: js.dfy ===
/**
 The JavaScript values the request pipeline inspects or passes through: optional
 arguments, the payload shapes a caller may hand to a verb, completions of host calls,
 and the truthiness and string conversion rules the code relies on.
 */
module Js {
  import Decimal

  /** An optional argument: `None` stands for `undefined`. */
  datatype Option<+T> = None | Some(value: T)

  /** A response object of the Fetch Standard, reduced to its status and an identity. */
  datatype Response = Response(status: int, handle: nat) {
    /** The `ok` getter: the status is in the range 200 to 299. */
    predicate Ok() {
      200 <= status <= 299
    }
  }

  /** The body readers of a response: `json()`, `text()`, `blob()`, `formData()`, `arrayBuffer()`. */
  datatype BodyReader = ReadJson | ReadText | ReadBlob | ReadFormData | ReadArrayBuffer

  /** A value that is resolved or thrown; anything the host produces is opaque. */
  datatype JsValue = Undefined | ResponseObject(response: Response) | HostValue(handle: nat)

  /** How a call ended: normally with a value, or abruptly with the thrown or rejected reason.
      A settled promise is described by the same two cases. */
  datatype Completion<+T> = Normal(value: T) | Abrupt(reason: JsValue)

  /** The shapes of the loosely typed `data` argument: a string, an (integer) number,
      a plain object with its own enumerable string entries, a FormData instance, or
      `undefined`. */
  datatype Payload = Str(s: string) | Num(n: int) | Map(fields: seq<(string, string)>) | Form | Absent

  /** JavaScript truthiness: `""`, `0` and `undefined` are falsy, every object is truthy. */
  predicate Truthy(p: Payload) {
    match p
    case Str(s) => s != ""
    case Num(n) => n != 0
    case Map(_) => true
    case Form => true
    case Absent => false
  }

  /** `typeof p === "object"` for a non-null payload. */
  predicate IsObject(p: Payload) {
    p.Map? || p.Form?
  }

  /** `typeof p === "string" || typeof p === "number"`. */
  predicate IsScalar(p: Payload) {
    p.Str? || p.Num?
  }

  /** Truthiness of an optional string argument. */
  predicate Present(o: Option<string>) {
    o.Some? && o.value != ""
  }

  /** The ECMAScript ToString conversion, as used by `x + ''` and by template literals. */
  function ToJsString(p: Payload): (r: string)
    ensures p.Str? ==> r == p.s
    ensures p.Num? ==> r != "" && '?' !in r && '/' !in r
    ensures p.Num? && p.n >= 0 ==> Decimal.AllDigits(r) && Decimal.Value(r) == p.n
    ensures p.Num? && p.n < 0 ==> r[0] == '-' && Decimal.AllDigits(r[1..]) && Decimal.Value(r[1..]) == -p.n
  {
    match p
    case Str(s) => s
    case Num(n) => Decimal.IntToDecimal(n)
    case Map(_) => "[object Object]"
    case Form => "[object FormData]"
    case Absent => "undefined"
  }
}

=== FILE: modern.dfy ===
/**
 The current source, index.ts: `RestfulFetch.create`, and the `Request` class's `send` (URL
 and query composition per call), `fetch` (header merge, request interceptor, Content-Type and
 body, dispatch) and the classification of the dispatch outcome. The verbs `post`, `delete`,
 `put`, `patch` and `get` are `Call` with the verb fixed.
 */
module ModernFetch {
  import opened Js
  import opened Text
  import opened Records
  import opened HeaderLists
  import opened ContentRules
  import opened Urls
  import Decimal

  /** Per-call options: headers, fetch options, response type and a body (index.ts:24). */
  datatype RequestOption = RequestOption(headers: Record<string>, fetchOptions: Record<string>,
                                         responseType: Option<string>, data: Payload)

  /** What the request interceptor receives and returns (index.ts:20). */
  datatype RequestConfig = RequestConfig(url: string, headers: Record<string>, data: Payload,
                                         fetchOptions: Record<string>, responseType: Option<string>,
                                         verb: Method)

  /** The three optional hooks; each result is the settlement of the hook's promise (for the
      error interceptor: the completion of the synchronous call). */
  datatype Interceptors = Interceptors(request: Option<RequestConfig -> Completion<RequestConfig>>,
                                       response: Option<(Response, RequestConfig) -> Completion<JsValue>>,
                                       error: Option<JsValue -> Completion<JsValue>>)

  /** The options of `new RestfulFetch(...)`; absent header or option objects are empty. */
  datatype FactoryOptions = FactoryOptions(baseUrl: Option<string>, prefix: Option<string>,
                                           headers: Record<string>, fetchOptions: Record<string>,
                                           hooks: Interceptors)

  /** A `Request` instance: the composed handle URL and the instance defaults. */
  datatype Handle = Handle(url: string, headers: Record<string>, fetchOptions: Record<string>,
                           hooks: Interceptors)

  /** `create(url = '')`: the resource path is appended verbatim after the base and prefix. */
  function Create(o: FactoryOptions, url: Option<string>): (h: Handle)
    ensures var u := if url.Some? then url.value else "";
            h.url == BasePart(o.baseUrl) + PrefixPart(o.prefix) + u
    ensures var u := if url.Some? then url.value else "";
            |u| <= |h.url| && h.url[|h.url| - |u|..] == u
    ensures !Present(o.baseUrl) && !Present(o.prefix) ==> h.url == (if url.Some? then url.value else "")
    ensures url.None? ==> h.url == ComposeUrl(o.baseUrl, o.prefix, "")
    ensures h.headers == o.headers && h.fetchOptions == o.fetchOptions && h.hooks == o.hooks
  {
    var u := if url.Some? then url.value else "";
    Handle(ComposeUrl(o.baseUrl, o.prefix, u), o.headers, o.fetchOptions, o.hooks)
  }

  /** The URL and options `send` hands to `fetch`. */
  datatype Target = Target(url: string, options: RequestOption)

  /** The `/id` segment `send` appends for a string or number id. */
  function IdSegment(data: Payload): string {
    "/" + RemoveSlash(ToJsString(data))
  }

  /** A number id reaches the URL exactly as `String(n)` renders it: trimming and edge-slash
      removal never touch a decimal numeral, so the segment after the `/` reads back as the id. */
  lemma NumericIdSegmentRoundTrip(n: int)
    requires n != 0
    ensures IdSegment(Num(n)) == "/" + ToJsString(Num(n))
    ensures n > 0 ==> Decimal.AllDigits(IdSegment(Num(n))[1..]) && Decimal.Value(IdSegment(Num(n))[1..]) == n
  {
    var r := ToJsString(Num(n));
    if n < 0 {
      assert Decimal.Value(r[1..]) != 0;
      assert r[|r| - 1] == r[1..][|r| - 2];
    }
    assert Trimmed(r);
  }

  /** `send(method, data, dataAndOptions)` (index.ts:148-169), with the options returned
      rather than mutated. */
  function Send(base: string, verb: Method, data: Payload, opts: RequestOption,
                query: Payload -> string): (t: Target)
    // a falsy primary argument (undefined, "", 0) changes nothing
    ensures !Truthy(data) ==> t == Target(base, opts)
    // a string or number id becomes one path segment; on GET a truthy options.data moves into the query
    ensures Truthy(data) && IsScalar(data) && verb == GET && Truthy(opts.data) ==>
              t == Target(base + IdSegment(data) + "?" + query(opts.data), opts.(data := Absent))
    ensures Truthy(data) && IsScalar(data) && !(verb == GET && Truthy(opts.data)) ==>
              t == Target(base + IdSegment(data), opts)
    // a mapping is the query of a GET (even when empty) and replaces the body otherwise
    ensures IsObject(data) && verb == GET ==> t == Target(base + "?" + query(data), opts)
    ensures IsObject(data) && verb != GET ==> t == Target(base, opts.(data := data))
  {
    if Truthy(data) then
      if data.Str? || data.Num? then
        var url := base + IdSegment(data);
        if Truthy(opts.data) && verb == GET then Target(url + "?" + query(opts.data), opts.(data := Absent))
        else Target(url, opts)
      else if verb == GET then Target(base + "?" + query(data), opts)
      else Target(base, opts.(data := data))
    else Target(base, opts)
  }

  /** The query `send` appends, if any: the mapping itself on GET, or a truthy `options.data`
      after a GET id. */
  function QuerySource(verb: Method, data: Payload, opts: RequestOption): Option<Payload> {
    if verb != GET || !Truthy(data) then None
    else if IsObject(data) then Some(data)
    else if Truthy(opts.data) then Some(opts.data)
    else None
  }

  /** Splitting the URL `send` produces at its first `?` gives back the handle URL with the id
      segment, and exactly the serialised query; there is a query component exactly for a GET
      with a mapping (even an empty one) or with an id and a truthy `options.data`. */
  lemma SendQueryRecoverable(base: string, verb: Method, data: Payload, opts: RequestOption,
                             query: Payload -> string)
    requires '?' !in base
    requires data.Str? ==> '?' !in data.s
    ensures var t := Send(base, verb, data, opts, query);
            var path := if Truthy(data) && IsScalar(data) then base + IdSegment(data) else base;
            SplitQuery(t.url) == (path, match QuerySource(verb, data, opts)
                                        case Some(p) => Some(query(p))
                                        case None => None)
  {
    var t := Send(base, verb, data, opts, query);
    var path := if Truthy(data) && IsScalar(data) then base + IdSegment(data) else base;
    if Truthy(data) && IsScalar(data) {
      RemoveSlashKeepsOnly(ToJsString(data));
      assert '?' !in IdSegment(data);
    }
    var q := match QuerySource(verb, data, opts)
             case Some(p) => Some(query(p))
             case None => None;
    assert t.url == if q.Some? then path + "?" + q.value else path;
    SplitQueryRoundTrip(path, q);
  }

  /** The request config before the request interceptor: instance defaults merged with per-call
      values by `Object.assign` (index.ts:70-73). */
  function InitialConfig(h: Handle, url: string, verb: Method, opts: RequestOption): RequestConfig {
    RequestConfig(url, Assign(h.headers, opts.headers), opts.data,
                  Assign(h.fetchOptions, opts.fetchOptions), opts.responseType, verb)
  }

  /** The wrapper the constructor installs (index.ts:53-59): the caller's request interceptor,
      or the identity when there is none. */
  function RunRequestInterceptor(hook: Option<RequestConfig -> Completion<RequestConfig>>,
                                 config: RequestConfig): (r: Completion<RequestConfig>)
    ensures hook.None? ==> r == Normal(config)
    ensures hook.Some? ==> r == hook.value(config)
  {
    match hook
    case None => Normal(config)
    case Some(f) => f(config)
  }

  /** The part of `fetch` before the transport call (index.ts:65-110): merge, intercept, then
      decide Content-Type and body. Returns the request to dispatch and the intercepted config. */
  function BuildRequest(h: Handle, url: string, verb: Method, opts: RequestOption,
                        stringify: Payload -> Completion<string>)
    : (r: Completion<(Outgoing, RequestConfig)>)
    // the interceptor's url, headers and fetch options are used ...
    ensures r.Normal? ==> r.value.0.url == r.value.1.url && r.value.0.options == r.value.1.fetchOptions
    // ... but the method and the body come from the original call
    ensures r.Normal? ==> r.value.0.verb == verb
    ensures r.Normal? ==>
              Prepare(verb, opts.data, FromRecord(r.value.1.headers), stringify, RejectCall)
              == Normal(Prepared(r.value.0.headers, r.value.0.body))
    // the config is exactly what the request interceptor resolved to for the merged config
    ensures r.Normal? ==> RunRequestInterceptor(h.hooks.request, InitialConfig(h, url, verb, opts)) == Normal(r.value.1)
    // without a request interceptor the config is the merged one
    ensures h.hooks.request.None? && r.Normal? ==> r.value.1 == InitialConfig(h, url, verb, opts)
    // it fails exactly when the interceptor rejects or the JSON body cannot be produced
    ensures r.Abrupt? <==>
              (RunRequestInterceptor(h.hooks.request, InitialConfig(h, url, verb, opts)).Abrupt?
               || (!Bodyless(verb) && opts.data.Map? && stringify(opts.data).Abrupt?))
    // it fails with the interceptor's rejection, or else with the stringify error
    ensures r.Abrupt? ==>
              r.reason == (var c := RunRequestInterceptor(h.hooks.request, InitialConfig(h, url, verb, opts));
                           if c.Abrupt? then c.reason else stringify(opts.data).reason)
  {
    match RunRequestInterceptor(h.hooks.request, InitialConfig(h, url, verb, opts))
    case Abrupt(e) => Abrupt(e)
    case Normal(config) =>
      match Prepare(verb, opts.data, FromRecord(config.headers), stringify, RejectCall)
      case Abrupt(e) => Abrupt(e)
      case Normal(p) => Normal((Outgoing(config.url, verb, p.headers, p.body, config.fetchOptions), config))
  }

  /** Per-call header values win over instance defaults for the same key, keys present on one
      side only are kept, and nothing else enters the config a request interceptor receives. */
  lemma CallHeadersWin(h: Handle, url: string, verb: Method, opts: RequestOption)
    requires Distinct(Keys(h.headers)) && Distinct(Keys(opts.headers))
    ensures var merged := InitialConfig(h, url, verb, opts).headers;
            forall k :: Lookup(merged, k) == if Lookup(opts.headers, k).Some? then Lookup(opts.headers, k)
                                             else Lookup(h.headers, k)
    ensures forall k :: k in Keys(InitialConfig(h, url, verb, opts).headers)
                        <==> k in Keys(h.headers) || k in Keys(opts.headers)
  {
    AssignSpec(h.headers, opts.headers);
  }

  /** The body reader the `responseType` switch picks (index.ts:124-135); JSON by default. */
  function ReaderFor(responseType: Option<string>): (r: BodyReader)
    ensures responseType == Some("text") ==> r == ReadText
    ensures responseType == Some("blob") ==> r == ReadBlob
    ensures responseType == Some("formData") ==> r == ReadFormData
    ensures responseType == Some("arrayBuffer") ==> r == ReadArrayBuffer
    ensures r == ReadJson <==> responseType !in {Some("text"), Some("blob"), Some("formData"), Some("arrayBuffer")}
  {
    match responseType
    case Some("text") => ReadText
    case Some("blob") => ReadBlob
    case Some("formData") => ReadFormData
    case Some("arrayBuffer") => ReadArrayBuffer
    case _ => ReadJson
  }

  /** How a call settles, and the value the error interceptor was given if it ran. */
  datatype Settled = Settled(result: Completion<JsValue>, errorHookSaw: Option<JsValue>)

  /** The `catch` block (index.ts:140-145): the error interceptor runs for its effect and the
      call rejects with the caught error, unless the interceptor itself throws. */
  function Caught(hooks: Interceptors, e: JsValue): (s: Settled)
    ensures hooks.error.None? ==> s == Settled(Abrupt(e), None)
    ensures hooks.error.Some? && hooks.error.value(e).Normal? ==> s == Settled(Abrupt(e), Some(e))
    ensures hooks.error.Some? && hooks.error.value(e).Abrupt? ==> s == Settled(hooks.error.value(e), Some(e))
  {
    match hooks.error
    case None => Settled(Abrupt(e), None)
    case Some(f) =>
      match f(e)
      case Normal(_) => Settled(Abrupt(e), Some(e))
      case Abrupt(e2) => Settled(Abrupt(e2), Some(e))
  }

  /** The `try` block after the transport call (index.ts:112-139). The response interceptor's
      promise is returned without `await` and the non-ok rejection is returned, so neither is
      caught; an awaited body reader that rejects is. */
  function Settle(sent: Completion<Response>, config: RequestConfig, hooks: Interceptors,
                  read: (Response, BodyReader) -> Completion<JsValue>): (s: Settled)
    // the response interceptor owns every returned response, ok or not
    ensures sent.Normal? && hooks.response.Some? ==>
              s == Settled(hooks.response.value(sent.value, config), None)
    // without it, a non-ok response rejects with the response itself
    ensures sent.Normal? && hooks.response.None? && !sent.value.Ok() ==>
              s == Settled(Abrupt(ResponseObject(sent.value)), None)
    // and an ok response is read once, with the reader the response type picks
    ensures sent.Normal? && hooks.response.None? && sent.value.Ok()
            && read(sent.value, ReaderFor(config.responseType)).Normal? ==>
              s == Settled(read(sent.value, ReaderFor(config.responseType)), None)
    // the error interceptor sees exactly the transport error or the reader's rejection ...
    ensures s.errorHookSaw.Some? <==>
              hooks.error.Some? &&
              (sent.Abrupt? || (hooks.response.None? && sent.value.Ok()
                                && read(sent.value, ReaderFor(config.responseType)).Abrupt?))
    // ... and the call then still rejects with that error, unless the interceptor throws
    ensures s.errorHookSaw.Some? && hooks.error.value(s.errorHookSaw.value).Normal? ==>
              s.result == Abrupt(s.errorHookSaw.value)
    // an error interceptor that throws replaces the error the call rejects with
    ensures s.errorHookSaw.Some? && hooks.error.value(s.errorHookSaw.value).Abrupt? ==>
              s.result == hooks.error.value(s.errorHookSaw.value)
    // with no error interceptor, a transport error or a reader rejection is the call's rejection
    ensures sent.Abrupt? && hooks.error.None? ==> s == Settled(Abrupt(sent.reason), None)
    // the error caught is the transport error, or the reader's rejection of an ok response
    ensures sent.Abrupt? ==> s == Caught(hooks, sent.reason)
    ensures sent.Normal? && hooks.response.None? && sent.value.Ok()
            && read(sent.value, ReaderFor(config.responseType)).Abrupt? ==>
              s == Caught(hooks, read(sent.value, ReaderFor(config.responseType)).reason)
    ensures s.errorHookSaw.Some? ==>
              s.errorHookSaw.value == if sent.Abrupt? then sent.reason
                                      else read(sent.value, ReaderFor(config.responseType)).reason
    ensures sent.Normal? && hooks.response.None? && sent.value.Ok() && hooks.error.None? ==>
              s == Settled(read(sent.value, ReaderFor(config.responseType)), None)
  {
    match sent
    case Abrupt(e) => Caught(hooks, e)
    case Normal(response) =>
      if hooks.response.Some? then Settled(hooks.response.value(response, config), None)
      else if response.Ok() then
        match read(response, ReaderFor(config.responseType))
        case Normal(v) => Settled(Normal(v), None)
        case Abrupt(e) => Caught(hooks, e)
      else Settled(Abrupt(ResponseObject(response)), None)
  }

  /** One call: the request dispatched (if it got that far) and how the call settled. */
  datatype Trace = Trace(sent: Option<Outgoing>, settled: Settled)

  /** `send` followed by `fetch`: the whole pipeline of one verb call. index.ts defines the
      verbs `post`, `delete`, `put`, `patch` and `get` only, so `HEAD` is never reached from
      the library's own API. */
  function Call(h: Handle, verb: Method, data: Payload, opts: RequestOption, host: Host): (tr: Trace)
    // a request that builds is dispatched, and the call settles as the transport outcome does;
    // one that does not build rejects with the building error
    ensures var t := Send(h.url, verb, data, opts, host.query);
            var b := BuildRequest(h, t.url, verb, t.options, host.stringify);
            && (tr.sent.None? <==> b.Abrupt?)
            && (b.Normal? ==> tr == Trace(Some(b.value.0), Settle(host.transport(b.value.0), b.value.1, h.hooks, host.read)))
            && (b.Abrupt? ==> tr == Trace(None, Settled(Abrupt(b.reason), None)))
    // a body verb sends its object argument, or else `options.data`: a mapping as its JSON
    // text, FormData as itself
    ensures var d := if IsObject(data) then data else opts.data;
            tr.sent.Some? && !Bodyless(verb) && d.Map? ==>
              host.stringify(d).Normal? && tr.sent.value.body == JsonText(host.stringify(d).value)
    ensures var d := if IsObject(data) then data else opts.data;
            tr.sent.Some? && !Bodyless(verb) ==> (tr.sent.value.body.FormBody? <==> d.Form?)
    // a failure before dispatch (request interceptor, JSON body) skips the transport and the
    // error interceptor alike
    ensures tr.sent.None? ==> tr.settled.result.Abrupt? && tr.settled.errorHookSaw.None?
    ensures tr.sent.Some? ==> tr.sent.value.verb == verb
    ensures tr.sent.Some? && Bodyless(verb) ==> tr.sent.value.body == NoBody
    ensures tr.sent.Some? && h.hooks.request.None? ==>
              tr.sent.value.url == Send(h.url, verb, data, opts, host.query).url
  {
    var t := Send(h.url, verb, data, opts, host.query);
    match BuildRequest(h, t.url, verb, t.options, host.stringify)
    case Abrupt(e) => Trace(None, Settled(Abrupt(e), None))
    case Normal(built) =>
      Trace(Some(built.0), Settle(host.transport(built.0), built.1, h.hooks, host.read))
  }

  /** A mapping whose `JSON.stringify` throws is never sent: for POST, PUT, PATCH and DELETE
      the call rejects with the stringify error before dispatch, without the error interceptor,
      whenever the request interceptor (if any) resolves. */
  lemma StringifyFailureRejectsBeforeDispatch(h: Handle, verb: Method, fields: seq<(string, string)>,
                                              opts: RequestOption, host: Host)
    requires !Bodyless(verb)
    requires var t := Send(h.url, verb, Map(fields), opts, host.query);
             RunRequestInterceptor(h.hooks.request, InitialConfig(h, t.url, verb, t.options)).Normal?
    requires host.stringify(Map(fields)).Abrupt?
    ensures Call(h, verb, Map(fields), opts, host)
            == Trace(None, Settled(Abrupt(host.stringify(Map(fields)).reason), None))
  {
    var t := Send(h.url, verb, Map(fields), opts, host.query);
    assert t.options.data == Map(fields);
  }
}

=== FILE: records.dfy ===
/**
 Plain JavaScript objects with string keys (header records, fetch options) as association
 lists in own-property order, and `Object.assign`, which the pipeline uses to merge instance
 defaults with per-call values. Keys are compared exactly, without case folding.
 */
module Records {
  import opened Js
  import Seqs

  type Record<V> = seq<(string, V)>

  /** The own keys, in property order. */
  function Keys<V>(r: Record<V>): seq<string> {
    if |r| == 0 then [] else [r[0].0] + Keys(r[1..])
  }

  /** `r[k]` for an own key, `None` for a missing one. */
  function Lookup<V>(r: Record<V>, k: string): Option<V> {
    if |r| == 0 then None else if r[0].0 == k then Some(r[0].1) else Lookup(r[1..], k)
  }

  /** An object's own keys are pairwise distinct. */
  predicate Distinct(ks: seq<string>) {
    forall i, j :: 0 <= i < j < |ks| ==> ks[i] != ks[j]
  }

  lemma {:induction false} KeysLookup<V>(r: Record<V>, k: string)
    ensures k in Keys(r) <==> Lookup(r, k).Some?
  {
    if |r| > 0 {
      KeysLookup(r[1..], k);
    }
  }

  /** The property assignment `r[k] = v`: an existing key keeps its position and takes the new
      value, a new key is added last. */
  function Put<V>(r: Record<V>, k: string, v: V): (r': Record<V>)
    ensures Lookup(r', k) == Some(v)
    ensures forall j :: j != k ==> Lookup(r', j) == Lookup(r, j)
    ensures Keys(r') == if k in Keys(r) then Keys(r) else Keys(r) + [k]
  {
    if |r| == 0 then [(k, v)]
    else if r[0].0 == k then [(k, v)] + r[1..]
    else
      var rest := Put(r[1..], k, v);
      assert Keys([r[0]] + rest) == [r[0].0] + Keys(rest);
      [r[0]] + rest
  }

  /** Copies the own properties of `source` onto `target`, left to right. */
  function PutAll<V>(target: Record<V>, source: Record<V>): Record<V>
    decreases |source|
  {
    if |source| == 0 then target else PutAll(Put(target, source[0].0, source[0].1), source[1..])
  }

  /** `Object.assign({}, defaults, overrides)`. */
  function Assign<V>(defaults: Record<V>, overrides: Record<V>): Record<V> {
    PutAll(PutAll([], defaults), overrides)
  }

  lemma {:induction false} DistinctTail(ks: seq<string>)
    requires |ks| > 0 && Distinct(ks)
    ensures Distinct(ks[1..]) && ks[0] !in ks[1..]
  {
  }

  lemma {:induction false} DistinctAppend(ks: seq<string>, k: string)
    requires Distinct(ks) && k !in ks
    ensures Distinct(ks + [k])
  {
  }

  /** Copying an object's properties: a key of `source` takes its `source` value, any other key
      keeps the `target` value; `target`'s keys stay first and in order; no key is repeated. */
  lemma {:induction false} PutAllSpec<V>(target: Record<V>, source: Record<V>)
    requires Distinct(Keys(source))
    ensures forall k :: Lookup(PutAll(target, source), k)
                        == if Lookup(source, k).Some? then Lookup(source, k) else Lookup(target, k)
    ensures forall k :: k in Keys(PutAll(target, source)) <==> k in Keys(target) || k in Keys(source)
    ensures Keys(target) <= Keys(PutAll(target, source))
    ensures Distinct(Keys(target)) ==> Distinct(Keys(PutAll(target, source)))
    decreases |source|
  {
    if |source| > 0 {
      var k0 := source[0].0;
      var t' := Put(target, k0, source[0].1);
      DistinctTail(Keys(source));
      assert Keys(source[1..]) == Keys(source)[1..];
      PutAllSpec(t', source[1..]);
      KeysLookup(source[1..], k0);
      if Distinct(Keys(target)) && k0 !in Keys(target) {
        DistinctAppend(Keys(target), k0);
      }
    }
  }

  /** `Object.assign({}, defaults, overrides)` merges two objects: an override wins on a shared
      key, a key on only one side is kept with its value, the defaults' keys come first in their
      own order, and the result is again an object (no repeated key). */
  lemma AssignSpec<V>(defaults: Record<V>, overrides: Record<V>)
    requires Distinct(Keys(defaults)) && Distinct(Keys(overrides))
    ensures forall k :: Lookup(Assign(defaults, overrides), k)
                        == if Lookup(overrides, k).Some? then Lookup(overrides, k) else Lookup(defaults, k)
    ensures forall k :: k in Keys(Assign(defaults, overrides)) <==> k in Keys(defaults) || k in Keys(overrides)
    ensures Keys(defaults) <= Keys(Assign(defaults, overrides))
    ensures Distinct(Keys(Assign(defaults, overrides)))
  {
    PutAllOntoEmpty(defaults);
    PutAllSpec(defaults, overrides);
  }

  lemma {:induction false} KeysAppend<V>(r: Record<V>, e: (string, V))
    ensures Keys(r + [e]) == Keys(r) + [e.0]
  {
    if |r| > 0 {
      assert (r + [e])[1..] == r[1..] + [e];
      KeysAppend(r[1..], e);
    }
  }

  lemma {:induction false} PutFresh<V>(r: Record<V>, k: string, v: V)
    requires k !in Keys(r)
    ensures Put(r, k, v) == r + [(k, v)]
  {
    if |r| > 0 {
      PutFresh(r[1..], k, v);
    }
  }

  /** Copying properties whose keys are new appends them in order. */
  lemma {:induction false} PutAllFresh<V>(target: Record<V>, source: Record<V>)
    requires Distinct(Keys(source))
    requires forall k :: k in Keys(source) ==> k !in Keys(target)
    ensures PutAll(target, source) == target + source
    decreases |source|
  {
    if |source| > 0 {
      var e, rest := source[0], source[1..];
      FreshStep(target, source);
      PutAllFresh(target + [e], rest);
      Seqs.AppendAssoc(target, [e], rest);
      assert [e] + rest == source;
    }
  }

  /** Copying the first fresh property appends it, and the remaining ones stay fresh. */
  lemma FreshStep<V>(target: Record<V>, source: Record<V>)
    requires |source| > 0 && Distinct(Keys(source))
    requires forall k :: k in Keys(source) ==> k !in Keys(target)
    ensures PutAll(target, source) == PutAll(target + [source[0]], source[1..])
    ensures Distinct(Keys(source[1..]))
    ensures forall k :: k in Keys(source[1..]) ==> k !in Keys(target + [source[0]])
  {
    var e, rest := source[0], source[1..];
    assert Keys(source) == [e.0] + Keys(rest);
    DistinctTail(Keys(source));
    assert Keys(source)[1..] == Keys(rest);
    PutFresh(target, e.0, e.1);
    KeysAppend(target, e);
  }

  /** `Object.assign({}, obj)` is a copy of `obj`. */
  lemma PutAllOntoEmpty<V>(source: Record<V>)
    requires Distinct(Keys(source))
    ensures PutAll([], source) == source
  {
    PutAllFresh([], source);
  }
}

=== FILE: seqs.dfy ===
/**
 Sequence identities the other modules cite at single steps, so that their proofs do not
 have to rediscover them by extensionality.
 */
module Seqs {

  lemma AppendAssoc<T>(a: seq<T>, b: seq<T>, c: seq<T>)
    ensures a + b + c == a + (b + c)
  {
  }

  /** A prefix `r` of a suffix `t` of `s` is the slice of `s` starting where `t` does, and
      what follows `r` in `t` is what follows it in `s`. */
  lemma PrefixOfSuffix<T>(s: seq<T>, t: seq<T>, r: seq<T>)
    requires |t| <= |s| && t == s[|s| - |t|..]
    requires |r| <= |t| && r == t[..|r|]
    ensures r == s[|s| - |t|..|s| - |t| + |r|]
    ensures t[|r|..] == s[|s| - |t| + |r|..]
  {
  }

  /** A slice holds only elements of the whole. */
  lemma SliceMembers<T>(s: seq<T>, lo: nat, hi: nat)
    requires lo <= hi <= |s|
    ensures forall x :: x in s[lo..hi] ==> x in s
  {
    forall x | x in s[lo..hi]
      ensures x in s
    {
      var k :| 0 <= k < hi - lo && s[lo..hi][k] == x;
      assert s[lo + k] == x;
    }
  }
}

=== FILE: text.dfy ===
/**
 String helpers of the URL composer: `String.prototype.trim`, the `removeSlash`
 helper shared by both variants, ASCII lower-casing for header names and joining
 header values.
 */
module Text {
  import Seqs

  /** The code points `String.prototype.trim` removes: the ECMAScript WhiteSpace
      and LineTerminator characters. */
  predicate IsTrimmable(c: char) {
    var n := c as int;
    || (0x09 <= n <= 0x0D)
    || n == 0x20 || n == 0xA0 || n == 0x1680
    || (0x2000 <= n <= 0x200A)
    || n == 0x2028 || n == 0x2029 || n == 0x202F || n == 0x205F || n == 0x3000 || n == 0xFEFF
  }

  /** Every character of `t` is one that trim removes. */
  predicate Blank(t: string) {
    forall i :: 0 <= i < |t| ==> IsTrimmable(t[i])
  }

  /** Neither end of `t` is a character that trim removes. */
  predicate Trimmed(t: string) {
    t == [] || (!IsTrimmable(t[0]) && !IsTrimmable(t[|t| - 1]))
  }

  /** `s` without its leading white space. */
  function TrimStart(s: string): (r: string)
    ensures |r| <= |s| && r == s[|s| - |r|..]
    ensures r == [] || !IsTrimmable(r[0])
    decreases |s|
  {
    if |s| > 0 && IsTrimmable(s[0]) then TrimStart(s[1..]) else s
  }

  /** `s` without its trailing white space. */
  function TrimEnd(s: string): (r: string)
    ensures |r| <= |s| && r == s[..|r|]
    ensures r == [] || !IsTrimmable(r[|r| - 1])
    decreases |s|
  {
    if |s| > 0 && IsTrimmable(s[|s| - 1]) then TrimEnd(s[..|s| - 1]) else s
  }

  /** What `TrimStart` drops is white space only. */
  lemma {:induction false} TrimStartDropsBlank(s: string)
    ensures Blank(s[..|s| - |TrimStart(s)|])
    decreases |s|
  {
    if |s| > 0 && IsTrimmable(s[0]) {
      var m := |s| - |TrimStart(s)|;
      TrimStartDropsBlank(s[1..]);
      forall k | 0 <= k < m
        ensures IsTrimmable(s[..m][k])
      {
        if k > 0 {
          assert s[..m][k] == s[1..][..m - 1][k - 1];
        }
      }
    }
  }

  /** What `TrimEnd` drops is white space only. */
  lemma {:induction false} TrimEndDropsBlank(s: string)
    ensures Blank(s[|TrimEnd(s)|..])
    decreases |s|
  {
    if |s| > 0 && IsTrimmable(s[|s| - 1]) {
      var n := |TrimEnd(s)|;
      TrimEndDropsBlank(s[..|s| - 1]);
      forall k | 0 <= k < |s| - n
        ensures IsTrimmable(s[n..][k])
      {
        if n + k < |s| - 1 {
          assert s[n..][k] == s[..|s| - 1][n..][k];
        }
      }
    }
  }

  /** `s.trim()`: `s` with its leading and trailing white space and line terminators removed. */
  function Trim(s: string): (r: string)
    ensures Trimmed(r) && |r| <= |s|
    ensures Trimmed(s) ==> r == s
  {
    TrimEnd(TrimStart(s))
  }

  /** How many characters `trim` drops at the front. */
  function TrimOffset(s: string): (i: nat)
    ensures i <= |s|
  {
    |s| - |TrimStart(s)|
  }

  /** What `trim` keeps is a contiguous slice of its input ... */
  lemma TrimIsSlice(s: string)
    ensures TrimOffset(s) + |Trim(s)| <= |s|
    ensures Trim(s) == s[TrimOffset(s)..TrimOffset(s) + |Trim(s)|]
  {
    var t := TrimStart(s);
    var r := TrimEnd(t);
    assert Trim(s) == r && TrimOffset(s) == |s| - |t|;
    Seqs.PrefixOfSuffix(s, t, r);
  }

  /** ... and what it drops on either side is white space only. */
  lemma TrimDropsBlank(s: string)
    ensures TrimOffset(s) + |Trim(s)| <= |s|
    ensures Blank(s[..TrimOffset(s)]) && Blank(s[TrimOffset(s) + |Trim(s)|..])
  {
    var t := TrimStart(s);
    var r := TrimEnd(t);
    assert Trim(s) == r && TrimOffset(s) == |s| - |t|;
    Seqs.PrefixOfSuffix(s, t, r);
    TrimStartDropsBlank(s);
    TrimEndDropsBlank(t);
  }

  /** The edge-slash removal of `removeSlash` on an already trimmed string, stated as slices:
      what is left is `t` less at most its first and at most its last character. */
  function StripEdgeSlashes(t: string): (r: string)
    ensures |r| <= |t| <= |r| + 2
    ensures r == t[..|r|] || (|r| < |t| && r == t[1..|r| + 1])
    ensures (t == [] || (t[0] != '/' && t[|t| - 1] != '/')) ==> r == t
  {
    var a := if |t| > 0 && t[0] == '/' then 1 else 0;
    var b := if |t| > a && t[|t| - 1] == '/' then |t| - 1 else |t|;
    t[a..b]
  }

  /** `removeSlash(str)`: `str.trim()` with at most one leading and at most one trailing
      `/` removed; slashes further in survive. */
  function RemoveSlash(s: string): (r: string)
    ensures var t := Trim(s);
            && |r| <= |t| <= |r| + 2
            && (r == t[..|r|] || (|r| < |t| && r == t[1..|r| + 1]))
            && ((t == [] || (t[0] != '/' && t[|t| - 1] != '/')) ==> r == t)
  {
    StripEdgeSlashes(Trim(s))
  }

  /** `removeSlash` only deletes characters: every character of its result occurs in its input. */
  lemma RemoveSlashKeepsOnly(s: string)
    ensures forall c :: c in RemoveSlash(s) ==> c in s
  {
    var t := Trim(s);
    var r := RemoveSlash(s);
    TrimIsSlice(s);
    Seqs.SliceMembers(s, TrimOffset(s), TrimOffset(s) + |t|);
    var a := if r == t[..|r|] then 0 else 1;
    assert r == t[a..a + |r|];
    Seqs.SliceMembers(t, a, a + |r|);
  }

  /** Reference semantics of `t.replace(/(^\/|\/$)/g, '')` from position `i` on: the global
      regular expression visits the positions left to right and deletes a `/` exactly when it
      stands at the start (`^`) or at the end (`$`) of the whole string. */
  function RegexReplaceFrom(t: string, i: nat): string
    requires i <= |t|
    decreases |t| - i
  {
    if i == |t| then ""
    else if t[i] == '/' && (i == 0 || i == |t| - 1) then RegexReplaceFrom(t, i + 1)
    else [t[i]] + RegexReplaceFrom(t, i + 1)
  }

  /** What the global replace keeps of the last character. */
  function KeptLast(t: string): string
    requires |t| > 0
  {
    if t[|t| - 1] == '/' then "" else [t[|t| - 1]]
  }

  lemma {:induction false} RegexReplaceInterior(t: string, i: nat)
    requires 1 <= i < |t|
    ensures RegexReplaceFrom(t, i) == t[i..|t| - 1] + KeptLast(t)
    decreases |t| - i
  {
    if i == |t| - 1 {
      assert RegexReplaceFrom(t, i + 1) == "";
    } else {
      RegexReplaceInterior(t, i + 1);
      assert t[i..|t| - 1] == [t[i]] + t[i + 1..|t| - 1];
    }
  }

  /** The slice formulation agrees with the regular-expression replacement on every string. */
  lemma {:induction false} StripEdgeSlashesIsRegexReplace(t: string)
    ensures StripEdgeSlashes(t) == RegexReplaceFrom(t, 0)
  {
    if |t| == 0 {
    } else if |t| == 1 {
      assert RegexReplaceFrom(t, 1) == "";
    } else {
      RegexReplaceInterior(t, 1);
      if t[|t| - 1] == '/' {
        assert t[1..|t| - 1] + KeptLast(t) == t[1..|t| - 1];
      } else {
        assert t[1..|t| - 1] + KeptLast(t) == t[1..];
      }
      if t[0] != '/' {
        assert t[0..] == [t[0]] + t[1..];
        assert t[0..|t| - 1] == [t[0]] + t[1..|t| - 1];
      }
    }
  }

  /** `removeSlash` is the trim followed by the regular-expression replacement, on every input. */
  lemma RemoveSlashIsTrimThenReplace(s: string)
    ensures RemoveSlash(s) == RegexReplaceFrom(Trim(s), 0)
  {
    StripEdgeSlashesIsRegexReplace(Trim(s));
  }

  /** One slash is removed from each end and no more: `"/" + m + "/"` becomes `m`
      whatever `m` holds, so doubled slashes keep one of their pair. */
  lemma RemoveSlashStripsOneEach(m: string)
    ensures RemoveSlash("/" + m + "/") == m
  {
    var t := "/" + m + "/";
    assert Trimmed(t);
    assert t[1..|t| - 1] == m;
  }

  /** `removeSlash` is not idempotent: a doubled slash at either edge keeps one of the pair,
      which a second application then removes (`"//a//"` becomes `"/a/"`, then `"a"`). */
  lemma RemoveSlashNotIdempotent(m: string)
    ensures RemoveSlash("//" + m + "//") == "/" + m + "/"
    ensures RemoveSlash(RemoveSlash("//" + m + "//")) == m
  {
    var once := "/" + m + "/";
    DoubledSlashes(m);
    RemoveSlashStripsOneEach(once);
    RemoveSlashStripsOneEach(m);
  }

  lemma DoubledSlashes(m: string)
    ensures "//" + m + "//" == "/" + ("/" + m + "/") + "/"
  {
    var l, r := "//" + m + "//", "/" + ("/" + m + "/") + "/";
    assert |l| == |r|;
    forall k | 0 <= k < |l|
      ensures l[k] == r[k]
    {
    }
  }

  /** ASCII lower-casing, the case folding header-name comparison uses. */
  function LowerChar(c: char): char {
    if 'A' <= c <= 'Z' then (c as int + 32) as char else c
  }

  function AsciiLower(s: string): (r: string)
    ensures |r| == |s|
    ensures forall i :: 0 <= i < |s| ==> r[i] == LowerChar(s[i])
  {
    seq(|s|, i requires 0 <= i < |s| => LowerChar(s[i]))
  }

  /** `parts.join(sep)`. */
  function Join(parts: seq<string>, sep: string): string
  {
    if |parts| == 0 then ""
    else if |parts| == 1 then parts[0]
    else parts[0] + sep + Join(parts[1..], sep)
  }

  /** With a non-empty separator, a join is empty exactly when there is nothing to join
      or a single empty part. */
  lemma {:induction false} JoinEmptyIff(parts: seq<string>, sep: string)
    requires sep != ""
    ensures Join(parts, sep) == "" <==> (|parts| == 0 || (|parts| == 1 && parts[0] == ""))
  {
    if |parts| >= 2 {
      assert |Join(parts, sep)| >= |sep|;
    }
  }
}

=== FILE: urls.dfy ===
/**
 URL composition shared by both variants: the four baseUrl/prefix cases of `create`, and the
 split of a request URL at its first `?`, which recovers the query a verb appended.
 */
module Urls {
  import opened Js
  import opened Text

  /** The normalised baseUrl, or nothing when it is missing or empty. */
  function BasePart(baseUrl: Option<string>): string {
    if Present(baseUrl) then RemoveSlash(baseUrl.value) else ""
  }

  /** `"/"` and the normalised prefix, or nothing when it is missing or empty. */
  function PrefixPart(prefix: Option<string>): string {
    if Present(prefix) then "/" + RemoveSlash(prefix.value) else ""
  }

  /** The handle URL `create` builds from the factory's `baseUrl` and `prefix` and a resource
      path `tail` that is appended as it is. The four cases of the code are one concatenation
      of independent parts. */
  function ComposeUrl(baseUrl: Option<string>, prefix: Option<string>, tail: string): (r: string)
    ensures r == BasePart(baseUrl) + PrefixPart(prefix) + tail
    ensures |tail| <= |r| && r[|r| - |tail|..] == tail
    ensures !Present(baseUrl) && !Present(prefix) ==> r == tail
  {
    if Present(prefix) then
      if Present(baseUrl) then RemoveSlash(baseUrl.value) + ("/" + RemoveSlash(prefix.value)) + tail
      else "/" + RemoveSlash(prefix.value) + tail
    else if Present(baseUrl) then RemoveSlash(baseUrl.value) + tail
    else tail
  }

  /** The components of a URL split at its first `?`: what precedes it, and the query after it
      if there is one. */
  function SplitQuery(u: string): (r: (string, Option<string>))
    ensures r.1.None? <==> '?' !in u
    ensures r.1.None? ==> r.0 == u
    ensures r.1.Some? ==> u == r.0 + "?" + r.1.value && '?' !in r.0
  {
    if |u| == 0 then ("", None)
    else if u[0] == '?' then ("", Some(u[1..]))
    else
      var rest := SplitQuery(u[1..]);
      assert u == [u[0]] + u[1..];
      ([u[0]] + rest.0, rest.1)
  }

  /** A URL built as a `?`-free path followed by `"?" + q` gives back exactly that path and
      that query, whatever `q` contains; a `?`-free URL has no query. */
  lemma {:induction false} SplitQueryRoundTrip(path: string, q: Option<string>)
    requires '?' !in path
    ensures SplitQuery(if q.Some? then path + "?" + q.value else path) == (path, q)
    decreases |path|
  {
    if q.Some? && |path| > 0 {
      var u := path + "?" + q.value;
      assert u[0] == path[0] && u[1..] == path[1..] + "?" + q.value;
      SplitQueryRoundTrip(path[1..], q);
      assert [path[0]] + path[1..] == path;
    } else if q.Some? {
      assert path + "?" + q.value == "?" + q.value;
    }
  }
}

=== FILE: variants.dfy ===
/**
 Where the two variants of the library, index.ts (`ModernFetch`) and dist/index.js
 (`DesonFetch`), agree and where they part, stated over all inputs.
 */
module Variants {
  import opened Js
  import opened Text
  import opened Urls
  import Records
  import HeaderLists
  import ContentRules
  import ModernFetch
  import DesonFetch

  /** For a fixed base and prefix, `create` is injective in the resource path it appends. */
  lemma {:induction false} ComposeUrlInjective(baseUrl: Option<string>, prefix: Option<string>,
                                               t1: string, t2: string)
    requires ComposeUrl(baseUrl, prefix, t1) == ComposeUrl(baseUrl, prefix, t2)
    ensures t1 == t2
  {
    var r := ComposeUrl(baseUrl, prefix, t1);
    assert |t1| == |t2|;
    assert t1 == r[|r| - |t1|..] == t2;
  }

  /** Both `create`s build the same handle URL from the same base and prefix exactly when the
      resource path handed to index.ts is already in the form dist/index.js normalises it to:
      `"/" + removeSlash(url)`, or empty when there is none. */
  lemma CreateAgreesIffPathNormalised(baseUrl: Option<string>, prefix: Option<string>,
                                      headers: Records.Record<string>,
                                      fetchOptions: Records.Record<string>,
                                      modernHooks: ModernFetch.Interceptors,
                                      desonHooks: DesonFetch.Interceptors, url: Option<string>)
    ensures var m := ModernFetch.Create(ModernFetch.FactoryOptions(baseUrl, prefix, headers, fetchOptions, modernHooks), url);
            var d := DesonFetch.Create(DesonFetch.FactoryOptions(baseUrl, prefix, headers, fetchOptions, desonHooks), url);
            m.url == d.url <==> (if url.Some? then url.value else "") == DesonFetch.ResourcePath(url)
  {
    var u := if url.Some? then url.value else "";
    if ComposeUrl(baseUrl, prefix, u) == ComposeUrl(baseUrl, prefix, DesonFetch.ResourcePath(url)) {
      ComposeUrlInjective(baseUrl, prefix, u, DesonFetch.ResourcePath(url));
    }
  }

  /** Slash-padded settings: with baseUrl `"/" + a + "/"`, prefix `"/" + v + "/"` and resource
      `"/" + u + "/"` (say `"/api/"`, `"/v1/"`, `"/users/"`), index.ts keeps the resource's
      slashes, giving `"api/v1/users/"`, and dist/index.js strips and re-adds the leading one,
      giving `"api/v1/users"`. */
  lemma CreateWithPaddedSegments(a: string, v: string, u: string,
                                 modernHooks: ModernFetch.Interceptors, desonHooks: DesonFetch.Interceptors)
    ensures ModernFetch.Create(ModernFetch.FactoryOptions(Some("/" + a + "/"), Some("/" + v + "/"), [], [], modernHooks),
                               Some("/" + u + "/")).url == a + ("/" + v) + ("/" + u + "/")
    ensures DesonFetch.Create(DesonFetch.FactoryOptions(Some("/" + a + "/"), Some("/" + v + "/"), [], [], desonHooks),
                              Some("/" + u + "/")).url == a + ("/" + v) + ("/" + u)
  {
    ComposePadded(a, v, "/" + u + "/");
    RemoveSlashStripsOneEach(u);
    assert DesonFetch.ResourcePath(Some("/" + u + "/")) == "/" + u;
    ComposePadded(a, v, "/" + u);
  }

  /** Slash-padded baseUrl and prefix segments are joined by one slash, ahead of the tail. */
  lemma ComposePadded(a: string, v: string, tail: string)
    ensures ComposeUrl(Some("/" + a + "/"), Some("/" + v + "/"), tail) == a + ("/" + v) + tail
  {
    RemoveSlashStripsOneEach(a);
    RemoveSlashStripsOneEach(v);
  }

  /** A non-ok response with no response interceptor: index.ts rejects with the response
      itself, dist/index.js reads it as JSON (for the default response type) as if it were ok. */
  lemma NonOkResponseDiffers(response: Response, mConfig: ModernFetch.RequestConfig,
                             dConfig: DesonFetch.ResponseConfig,
                             mHooks: ModernFetch.Interceptors, dHooks: DesonFetch.Interceptors,
                             read: (Response, BodyReader) -> Completion<JsValue>)
    requires !response.Ok()
    requires mHooks.response.None? && dHooks.response.None? && dConfig.responseType.None?
    ensures ModernFetch.Settle(Normal(response), mConfig, mHooks, read).result == Abrupt(ResponseObject(response))
    ensures DesonFetch.Settle(Normal(response), dConfig, dHooks, read)
            == DesonFetch.Awaited(dHooks, read(response, ReadJson))
  {
  }

  /** A response interceptor whose promise rejects: index.ts returns that promise un-awaited, so
      the call rejects and the error interceptor never runs; dist/index.js awaits it, so the
      rejection is caught and the error interceptor's result is returned instead. */
  lemma ResponseHookRejectionDiffers(response: Response, mConfig: ModernFetch.RequestConfig,
                                     dConfig: DesonFetch.ResponseConfig,
                                     mHooks: ModernFetch.Interceptors, dHooks: DesonFetch.Interceptors,
                                     read: (Response, BodyReader) -> Completion<JsValue>, e: JsValue)
    requires mHooks.response.Some? && mHooks.response.value(response, mConfig) == Abrupt(e)
    requires dHooks.response.Some? && dHooks.response.value(response, dConfig) == Abrupt(e)
    requires dHooks.error.Some?
    ensures ModernFetch.Settle(Normal(response), mConfig, mHooks, read) == ModernFetch.Settled(Abrupt(e), None)
    ensures DesonFetch.Settle(Normal(response), dConfig, dHooks, read) == dHooks.error.value(e)
  {
  }

  /** With no request interceptor and the same headers, an index.ts body-verb call with object
      data is dispatched exactly when dist/index.js would send a body for it, and then both
      send the same headers and the same body; they part only on a failing stringify. */
  lemma BodyVerbsSendSameRequest(mh: ModernFetch.Handle, dh: DesonFetch.Handle, verb: ContentRules.Method,
                                 data: Payload, mopts: ModernFetch.RequestOption,
                                 dopt: DesonFetch.ReqOption, url: string, host: ContentRules.Host)
    requires mh.hooks.request.None? && !ContentRules.Bodyless(verb) && IsObject(data)
    requires mh.headers == dh.headers && mopts.headers == dopt.headers
    ensures var m := ModernFetch.Call(mh, verb, data, mopts, host);
            var d := DesonFetch.Fetch(dh, url, verb, data, dopt, host);
            && (m.sent.Some? <==> !(data.Map? && host.stringify(data).Abrupt?))
            && (m.sent.Some? ==> m.sent.value.headers == d.sent.headers && m.sent.value.body == d.sent.body)
  {
    var merged := HeaderLists.FromRecord(Records.Assign(mh.headers, mopts.headers));
    ContentRules.PoliciesDifferOnlyOnStringifyFailure(verb, data, merged, host.stringify);
  }
}
